=== FILE: README.md ===
# PDF editor: OCR worker and window logic

A Dafny model of the sequential logic of a small PDF editor. The editor runs
OCR over a page range of a PDF in a background worker and shows the text in
a text box. It can also turn the lines of that text box into outline
(bookmark) items of a copy of the file.

The model has four modules:

- `Results` (results.dfy): `Option` and `Result`.
- `PyText` (pytext.dfy): the Python string operations the code relies on.
  These are `str.isspace`, `strip()`, `replace`, `split`, `join`, `str(int)`
  and `int(str)`. `isspace` is a table of code points. `strip()`, `replace`,
  `split` and `int(str)` are each tied by a lemma to an independent
  characterisation or an inverse: `Strip` is the unique trimmed result of
  cutting whitespace off both ends, `replace` is `join` of `split`, `join`
  undoes `split`, and `int()` undoes `str()`.
- `Ocr` (ocr.dfy): `OCRWorker.read_text` and `OCRWorker.run`.
  - The document library, image decoding and OCR engine are abstract inputs.
    A document is a sequence of pages, a page is a sequence of images, and
    each image either yields recognised text or raises.
  - A run is a pure function that returns the ordered trace of the worker's
    signals: status, text block, percent, error and finished. The trace also
    records the release of the document handle.
  - The stop flag is the first checkpoint at which the loop sees it set.
    Checkpoints `0 .. n-1` are the tops of the loop iterations. Checkpoint `n`
    is the test after the loop.
- `Window` (window.dfy): the window's slots.
  - `start_read_thread`: the validation sequence and the resulting actions.
  - `open_pdf`: the default range entries.
  - The wiring of the worker's signals to the text box and the message label.
  - `write_outlines`: titles, writer operations and output path.

## Model

| member | source | states |
|---|---|---|
| PyText.IsSpace | core/workers.py:43 | the code points Python's `str.isspace()` accepts: the ASCII whitespace TAB to CR and space, the separators U+001C to U+001F, and the Unicode spaces; a table with no contract of its own |
| PyText.Strip | core/workers.py:43 | the result has no whitespace at either end and is never longer than the input |
| PyText.StripIsTrimOf | core/workers.py:43 | the result is what remains of the input once a whitespace prefix and a whitespace suffix are cut off |
| PyText.StripUnique | core/workers.py:43 | any trimmed text obtained from the input by cutting whitespace off both ends is the result of `strip()`, so `strip()` is characterised uniquely |
| PyText.StripKeepsNonSpace | core/workers.py:43 | `strip()` deletes whitespace only: the non-whitespace characters of the input all survive, in order |
| PyText.ReplaceIsJoinOfSplit | core/workers.py:44-46 | `s.replace(pat, rep)` equals `rep.join(s.split(pat))`, linking replace to an independent piece-wise definition |
| PyText.ReplaceAll | core/workers.py:44-46 | Python's `replace`: leftmost, non-overlapping occurrences scanned left to right; it has no contract of its own and is pinned down by PyText.ReplaceIsJoinOfSplit, PyText.ReplaceIsSubseq and PyText.ReplaceKeepsNonSpace |
| PyText.Split | gui/window.py:279 | `split` always gives at least one piece; PyText.SplitJoinRoundTrip, PyText.SplitPiecesFree and PyText.SplitAround describe the pieces |
| PyText.Join | core/workers.py:44-46 | `sep.join(parts)`, the reference definition against which `replace` and `split` are stated (PyText.ReplaceIsJoinOfSplit, PyText.SplitJoinRoundTrip); it has no contract of its own |
| PyText.SplitJoinRoundTrip | gui/window.py:279 | joining the pieces of a split with the same separator gives back the original text |
| PyText.ReplaceIsSubseq | core/workers.py:44-46 | replacing a pattern by a subsequence of it (the empty text included) only deletes characters |
| PyText.ReplaceKeepsNonSpace | core/workers.py:44-46 | replacing a pattern by text with the same non-whitespace characters keeps the non-whitespace characters of the whole string, in order |
| PyText.RemoveAll | core/workers.py:46 | removing a character leaves no occurrence of it, keeps every other character that occurs, and yields a subsequence of the input |
| PyText.RemoveAllCounts | core/workers.py:46 | removing a character keeps every other character exactly as often as it occurs: the multiset of the result is that of the input with the removed character's count set to zero |
| PyText.ReplaceCharByNothing | core/workers.py:46 | `replace(" ", "")` is exactly the removal of every space |
| PyText.NatToString | gui/window.py:135 | `str(n)` of a natural number is at least one character, all decimal digits, with no leading zero |
| PyText.IntToString | core/workers.py:67 | `str(i)` of any integer is non-empty and starts with `-` exactly when the integer is negative |
| PyText.PyInt | gui/window.py:229-230 | `int(text)` on base-10 text: surrounding whitespace skipped except the separators U+001C to U+001F, then an optional sign and a decimal literal, anything else refused; it has no contract of its own: PyText.PyIntOfIntToString shows it inverts `str()`, PyText.PyIntPadded and PyText.SeparatorNotSkipped state which whitespace it skips |
| PyText.PyIntPadded | gui/window.py:229-230 | whitespace other than the separators U+001C to U+001F, on either side of a literal, does not change what `int()` reads |
| PyText.SeparatorNotSkipped | gui/window.py:229-230 | a separator from U+001C to U+001F in front of the digits makes `int()` refuse the text, although `strip()` cuts it off |
| PyText.PyIntOfNatToString | gui/window.py:135 | `int(str(n))` gives back `n` for every natural number |
| PyText.PyIntOfIntToString | gui/window.py:229-230 | `int()` gives back every integer from its decimal rendering, signs included |
| Ocr.Normalize | core/workers.py:43-46 | normalised OCR text contains no space, has no whitespace at either end, is a subsequence of the OCR text (hence never longer), and keeps every non-whitespace character of the OCR text, in order |
| Ocr.NormalizeDeletesOnly | core/workers.py:43-46 | each of the four steps (strip, CR LF to LF, LF LF to LF, drop spaces) only deletes, so their composition is a subsequence of the input |
| Ocr.NormalizeKeepsText | core/workers.py:43-46 | each of the four steps deletes whitespace only, so the composition keeps every non-whitespace character, in order |
| Ocr.NormalizeKeepsLineBreaks | core/workers.py:43-45 | the normalised text contains an LF exactly when the stripped OCR text does |
| Ocr.NormalizeKeepsLines | core/workers.py:43-46 | line breaks are collapsed, never removed or added: the normalised text has the line skeleton of the stripped OCR text, so two pieces of text are on separate lines afterwards exactly when whitespace holding a line break separated them before |
| Ocr.NormalizeTwoLines | core/workers.py:44 | `a` CR LF `b` CR LF `c` still reads as the three lines `a`, `b`, `c` |
| PyText.ReplaceKeepsSkeleton | core/workers.py:44-46 | replacing a pattern by text with the same line skeleton keeps the line skeleton of the whole string (the skeleton: the non-whitespace characters in order, with one LF wherever the whitespace between them holds a line break) |
| PyText.SkeletonAppend | core/workers.py:44-46 | the line skeleton of a concatenation is the two skeletons joined, a line break at the seam counted once |
| PyText.ReplaceKeepsChar | core/workers.py:44-46 | a character survives `replace` when the replacement holds it or the pattern does not |
| Ocr.NormalizeKeepsEnds | core/workers.py:44-46 | the three replacements keep a stripped text stripped: its first and last characters stay non-whitespace |
| Ocr.NormalizeClean | core/workers.py:43-46 | on text that is already stripped and has no CR and no space, normalisation is just the single LF LF to LF pass |
| Ocr.NormalizeNotIdempotent | core/workers.py:45 | normalising `a` LF LF LF `b` twice differs from normalising it once, because one replace pass does not collapse every run of line breaks |
| Ocr.ReadText | core/workers.py:31-46 | a page number outside the document fails as out of range, and only then; a page without images gives the empty text; any text returned has no space and no outer whitespace; a library error comes from the first image |
| Ocr.FirstImageOnly | core/workers.py:38-46 | images after the first never change the result; a first image that is recognised gives exactly its normalised text |
| Ocr.RangeLength | core/workers.py:55 | the number of pages counts `first .. last` inclusively, and is zero for a reversed range |
| Ocr.Progress | core/workers.py:70 | every percentage lies between 0 and 100, and the last page of a range reports 100 |
| Ocr.ProgressMonotone | core/workers.py:70 | percentages never decrease from one page to the next |
| Ocr.StepsRise | core/workers.py:57-71 | on a full run the reported percentages rise monotonically and end at 100 |
| Ocr.RunPagesEvents | core/workers.py:57-71 | the page loop emits only status, text and percent events, each status names a page of the range, and each percent lies between 0 and 100 |
| Ocr.Horizon | core/workers.py:58-60 | the iteration at which the stop flag is first seen: no earlier iteration sees it, and all later ones would |
| Ocr.PageEvents | core/workers.py:62-71 | the events of one page: status, the text block when the content is non-empty, the percentage; no contract of its own, Ocr.PageProjections states its projections |
| Ocr.Chunk | core/workers.py:67 | the string the text signal carries, `=== Page n ===` LF content LF; no contract of its own, Window.ShownTexts states where it ends up |
| Ocr.RunPages | core/workers.py:57-71 | the page loop; a loop left by `break` means the flag is still set at the test after the loop; Ocr.RunPagesEvents and Ocr.RunPagesPrefix describe its events |
| Ocr.RunPagesPrefix | core/workers.py:57-71 | until the stop flag is seen, and while reads succeed, the loop emits the complete events of each page one after another, in page order |
| Ocr.Finish | core/workers.py:73-81 | what follows the loop: the error then `finished` after an exception, otherwise the release then `finished` unless the flag is set; no contract of its own, Ocr.TraceShape states the resulting shapes |
| Ocr.Trace | core/workers.py:48-81 | the trace of an opened document for a given page reader; no contract of its own, Ocr.TraceShape, Ocr.TraceCompletes and Ocr.TraceFails state it |
| Ocr.Run | core/workers.py:48-81 | every trace ends with `finished` or with the release, `finished` occurs at most once and only last, the document is released exactly when no error was reported, and every percentage is between 0 and 100 |
| Ocr.TraceShape | core/workers.py:48-81 | the same four properties for the trace of any page reader |
| Ocr.RunFailsLast | core/workers.py:48-81 | a run reports an error exactly when its last two events are an error and `finished`, whether opening the file or reading a page failed |
| Ocr.TraceCompletes | core/workers.py:57-76 | without errors, the trace is the page blocks up to the stop point, then the release, then `finished` only if the flag was still clear after the loop |
| Ocr.TraceFails | core/workers.py:57-81 | when page `j` raises, the trace is the blocks of earlier pages, the status of page `j`, the error and `finished`, and no release |
| Ocr.PageProjections | core/workers.py:62-71 | one page emits its status, a text block exactly when its content is non-empty, and one percentage whether or not there was text |
| Ocr.BlocksStatuses | core/workers.py:57 | the statuses of consecutive page blocks are consecutive page numbers |
| Ocr.FullRun | core/workers.py:55-76 | an unstopped run without errors visits every page of the range once and in ascending order, reports the percentage of every page, emits the text of exactly the non-empty pages, and ends with release then `finished` |
| Ocr.StoppedRun | core/workers.py:57-76 | a run whose flag is first seen at iteration `k` visits only the first `k` pages, ends with the release and never emits `finished` |
| Ocr.FailedRun | core/workers.py:57-81 | a run that fails at page `j` has visited pages `first .. first+j`, ends with the error and then `finished`, and never releases the document |
| Ocr.ThreePageRun | core/workers.py:48-81 | a concrete run over pages 2 to 4, where only page 3 has an image, gives three statuses, one text block and percentages 33, 66 and 100 |
| Window.StartReadThread | gui/window.py:215-259 | the text box is cleared exactly when a file is open |
| Window.Check | gui/window.py:225-241 | the checks after the clearing never clear the text box again |
| Window.CheckIff | gui/window.py:225-241 | the checks start a worker on `first .. last` exactly when both entries are filled, parse to those numbers, and `1 <= first <= last <= total`; then they show the extraction message and start it |
| Window.StartIff | gui/window.py:215-259 | a worker on `first .. last` is started if and only if a file is open, both entries parse as Python integers to those numbers, and the range lies within the document |
| Window.StartIfAccepted | gui/window.py:220-259 | an accepted range clears the text, shows the extraction message and starts exactly one worker on that range |
| Window.StartOnlyIfAccepted | gui/window.py:215-259 | a worker is started only on an accepted range |
| Window.NoFileFirst | gui/window.py:216-218 | without an open file, the only action is the open-a-file message, before any clearing |
| Window.EmptyEntryBeforeParsing | gui/window.py:220-227 | an empty entry is reported after the clearing and before any `int()` conversion |
| Window.ReversedBeforeOutOfRange | gui/window.py:233-239 | a reversed range is reported as such, even when it is also out of range |
| Window.CheckReversed | gui/window.py:233-235 | in the checks, first after last wins over the range check |
| Window.ParsedNotEmpty | gui/window.py:229-230 | an entry that parses is non-empty, so the empty-entry check comes first |
| Window.StartedRangeInDocument | gui/window.py:237-239 | assuming the document the worker opens (core/workers.py:50) has as many pages as the page count the window checks against (gui/window.py:231), which nothing in the source enforces: every page of a started range exists in that document, so the worker never hits an out-of-range page |
| Window.UnparsableRaises | gui/window.py:229-230 | with a file open and both entries filled in, an entry `int()` refuses ends the slot with `ValueError` right after the text box is cleared |
| Window.OutOfRangeReported | gui/window.py:237-239 | an ordered range reaching outside `1 .. pageCount` shows the range message with the page count, after the clearing, and starts nothing |
| Window.EmptyDoesNotParse | gui/window.py:229 | `int("")` raises |
| Window.OpenPdf | gui/window.py:118-138 | cancelling the dialog changes nothing; choosing a file records it and sets the entries to texts that parse to 1 and to the page count |
| Window.OpenThenStart | gui/window.py:134-135 | right after opening a document with pages, starting extraction covers the whole document; an empty document is reported as first after last |
| Window.Shown | gui/window.py:256-258 | the window never shows more effects than the worker emitted signals (each has at most one, by Window.EventEffects); Window.ShownTexts and Window.ErrorOverwritten state which |
| Window.EventEffects | gui/window.py:256-258 | each signal has at most one effect, and exactly the signals the window does not connect (status, percent, and the release of the document) have none |
| Window.ShownTexts | gui/window.py:256 | what is appended to the text box is exactly the text blocks of the run, in order, each rendered as `=== Page n ===` LF content LF |
| Window.ErrorOverwritten | gui/window.py:257-258 | after any run that reports an error, whether opening the file or reading a page failed, the error text is shown and is immediately replaced by the completion message, which is what stays on the label |
| Window.ReadErrorOverwritten | gui/window.py:257-258 | when the read of page `j` fails, that page's error text is shown and then replaced by the completion message |
| Window.StoppedShowsNoCompletion | gui/window.py:258 | a stopped run never shows the completion message |
| Window.Titles | gui/window.py:279-280 | there are never more titles than lines, and every title is non-empty with no whitespace at either end |
| Window.OutlineTitles | gui/window.py:279-280 | the titles of the text box: its lines split at LF, stripped, blank ones dropped; no contract of its own, Window.OutlineTitlesOfJoin, Window.OutlineTitlesOfLines and Window.TitlesAreSingleLines state it |
| Window.TitlesAppend | gui/window.py:279-280 | the titles of two blocks of lines are the titles of the first followed by those of the second |
| Window.OutlineTitlesOfLines | gui/window.py:279-280 | the titles of two texts joined by a line break are the titles of each, in order |
| Window.OutlineTitlesOfLine | gui/window.py:279-280 | a single line gives its stripped text as its one title, or no title when it is blank |
| Window.OutlineTitlesOfJoin | gui/window.py:279-280 | lines written one per row give back exactly their own titles, in order |
| Window.TitlesAreSingleLines | gui/window.py:279 | no title contains a line break |
| Window.AddPages | gui/window.py:276-277 | one page addition per reader page, in order |
| Window.AddOutlines | gui/window.py:282-283 | one outline item per title, in order, each with `page_number=1` (pypdf's 0-based index: the second page) |
| Window.WriterContent | gui/window.py:276-283 | the writer receives every page first, in order, then one outline item per title, in order, each with `page_number=1` (pypdf's 0-based index: the second page) |
| Window.WriteOutlines | gui/window.py:267-286 | without a file only the open-a-file message results; otherwise all pages come first and in order, then one outline item per title with `page_number=1` (the second page), written to the path the source computes (every `.pdf` removed, then `.outline.pdf`) |
| Window.WriteOutlinesIntended | gui/window.py:267-286 | the corrected variant: the same result as the source except that the output path is the intended one |
| Window.WriteOutlinesAgree | gui/window.py:267-286 | when `.pdf` occurs in the file name only as its extension, the source and the corrected variant write the same content to the same file |
| Window.OutputPathAsWritten | gui/window.py:285 | the path as written ends with `.outline.pdf`, and what precedes it is the input with characters deleted |
| Window.OutputPath | gui/window.py:285 | the intended path (the corrected half of the finding below): it ends with `.outline.pdf`, and what precedes it is a prefix of the input path at most four characters shorter |
| Window.OutputPathOfPdf | gui/window.py:285 | `x.pdf` is written to `x.outline.pdf`, with `x` kept whole |
| Window.OutputPathOfOther | gui/window.py:285 | a name not ending in `.pdf` keeps its whole name and gets `.outline.pdf` appended (the corrected path) |
| Window.AsWrittenAgrees | gui/window.py:285 | when `.pdf` occurs in a path only as its extension, the source's path and the intended path agree |
| Window.StemThen | gui/window.py:285 | removing every `.pdf` from text that is free of `.pdf` up to a `.pdf` keeps that text whole and drops only the `.pdf` |
| Window.AsWrittenLosesDirectory | gui/window.py:285 | for every `dir.pdf/name.pdf` where neither `dir` nor `name` contains `.pdf`, the source writes `dir/name.outline.pdf`, dropping `.pdf` from the directory name |
| Window.OutputPathKeepsDirectory | gui/window.py:285 | the intended path for `dir.pdf/name.pdf` is `dir.pdf/name.outline.pdf` |
| Window.AsWrittenDiffers | gui/window.py:285 | on those paths the source's output path and the intended one differ |

## Left out

- Window.AddOutlines: pypdf reads `page_number=1` as a 0-based index, so every outline item points at the second page. What pypdf does with that index for a one-page file is not modelled: the writer's content is stated as the list of items, each carrying the index 1.
- Qt widgets, signals and threads are left out. This covers `QThread.start`, `terminate()`/`wait()` of a previous worker (gui/window.py:250-252) and the unused thread pool. A run is a pure function of its inputs, and the stop flag is an input.
- The document library, image decoding, the OCR engine and the PDF reader/writer are not modelled. They appear as abstract data: pages, images, recognised text or a raised message, and a sequence of reader pages.
- Ocr.Progress: the source computes `int((i+1)/total*100)` in floating point. The model uses the integer floor `((i+1)*100)/total`, which can be one higher. For example, 29 pages out of 100 gives 28 in floating point and 29 here. The exact percentages that Ocr.Progress, Ocr.FullRun and the other trace lemmas state are these idealised floor values, not the source's. Only their bounds, their monotonicity and the final 100 also hold for the floating-point values.
- Ocr.ReadText: pymupdf accepts a negative page index and wraps it around. The model reports every index outside `1 .. count` as out of range. A range that passes validation never reaches this case, provided the document the worker opens has the page count the window checked (Window.StartedRangeInDocument).
- PyText.PyInt: `int()` of the page entries is modelled for ASCII decimal literals with surrounding whitespace, a sign and single underscores between digits. Text with non-ASCII Unicode digits, which Python accepts, is refused here. Python 3.11 and later refuse to convert text of more than 4300 digits (`sys.set_int_max_str_digits`). The model has no such limit, so PyText.PyIntOfIntToString and PyText.PyIntOfNatToString hold there only for numbers of at most 4300 digits.
- Exception messages and the texts of the UI messages are not modelled. Each message is a constructor, and an error carries the failure it came from.
- The worker's constructor and the Tesseract path setting (core/workers.py:17-29, gui/window.py:243-247) are not modelled. core/__init__.py, which exports `Worker`, is not part of this model, so the model assumes `Worker` is the OCR worker over `filename, first, last`. Under that assumption the setting is likely broken: gui/window.py:255 passes the window itself as the fourth argument, the Tesseract path, and core/workers.py:26-27 then sets `pytesseract.tesseract_cmd` to the window object, overriding the path set at gui/window.py:243-247. This is a candidate defect, not a finding, since recognition is an abstract input here and the model is unaffected.
- `stop()` (core/workers.py:83-85) is modelled through the stop flag input. The window itself never calls it.
- The status and percent signals are not connected by the window. They appear in the trace but not in the window's effects.
- The debug `print` calls are left out.
- The text box's own append formatting is left out: each text block is one appended string.
- `open_pdf(output_path)` at the end of `write_outlines` is left out: it launches an external viewer (utils/pdf.py). Reading the file, writing it, and the errors those raise are left out too.
- config/__init__.py, app.py and gui/signals.py are left out: they hold configuration loading, application start-up and signal declarations.
- Ocr.Normalize: no idempotence is claimed, because the code does not have it: normalising twice can shorten the text again (Ocr.NormalizeNotIdempotent).

## Findings

| source | as written | input that shows it | evidently intended | confidence | as-written member | corrected member |
|---|---|---|---|---|---|---|
| gui/window.py:285 | the output path removes every occurrence of `.pdf` from the whole path, then appends `.outline.pdf` | `a.pdf/b.pdf` gives `a/b.outline.pdf`, a file in a different (possibly missing) directory; the same holds for every `dir.pdf/name.pdf` with no other `.pdf` in it | only the final `.pdf` extension is replaced, giving `a.pdf/b.outline.pdf` | high that the path changes as shown; not executed | Window.AsWrittenLosesDirectory (on Window.OutputPathAsWritten; see also Window.AsWrittenDiffers) | Window.OutputPath (with Window.OutputPathOfPdf; used by Window.WriteOutlinesIntended, tied to the source by Window.WriteOutlinesAgree) |

=== FILE: ocr.dfy ===
/**
 * The OCR worker of core/workers.py: per-page text extraction with its
 * text normalisation, and the run loop written as a pure function from the
 * document, the page range and the moment the stop flag is first seen to the
 * ordered list of events the worker emits.
 *
 * The document library, the image decoder and the OCR engine are not modelled:
 * a document is the list of its pages, a page the list of its embedded images,
 * and an image is what recognising it yields (text, or the message of the
 * exception one of those libraries raised).
 */
module Ocr {
  import opened Results
  import opened PyText

  /** What reading one embedded image yields: recognised text or an exception's message. */
  datatype ImageRead = Recognised(text: string) | Raised(message: string)

  /** A page: its embedded images in the library's enumeration order. */
  datatype Page = Page(images: seq<ImageRead>)

  /** An opened document: its pages, page 1 first. */
  datatype Document = Document(pages: seq<Page>)

  /** The outcome of opening the file with the document library. */
  datatype Opened = Opened(doc: Document) | OpenFailed(message: string)

  /** Why a run failed: a library exception, or a page number with no page behind it. */
  datatype Failure = LibraryError(message: string) | PageOutOfRange(pageIndex: int)

  /** What the worker does that the outside can observe, in order. */
  datatype Event =
    | Status(page: int)        // status_message: OCR of this page has started
    | Text(page: int, content: string)  // progress: the text block of a page, rendered by Chunk
    | Percent(value: int)      // progress_percent
    | Closed                   // the document handle is released
    | Error(failure: Failure)  // error, carrying the exception's message
    | Finished                 // finished

  // ---------------------------------------------------------------------------
  // read_text
  // ---------------------------------------------------------------------------

  /**
   * The clean-up applied to recognised text: `strip()`, then CR LF to LF, then
   * one pass turning LF LF into LF, then every space deleted.  It only deletes
   * characters, never leaves a space, and leaves no whitespace at either end.
   */
  function Normalize(ocr: string): (r: string)
    ensures ' ' !in r
    ensures IsSubseq(r, ocr) && |r| <= |ocr|
    ensures NonSpace(r) == NonSpace(ocr)
    ensures Trimmed(r)
  {
    var a := Strip(ocr);
    var b := ReplaceAll(a, "\r\n", "\n");
    var c := ReplaceAll(b, "\n\n", "\n");
    var r := ReplaceAll(c, " ", "");
    NormalizeDeletesOnly(ocr, a, b, c, r);
    NormalizeKeepsText(ocr, a, b, c, r);
    NormalizeKeepsEnds(a, b, c, r);
    ReplaceCharByNothing(c, ' ');
    r
  }

  lemma NormalizeDeletesOnly(ocr: string, a: string, b: string, c: string, r: string)
    requires a == Strip(ocr)
    requires b == ReplaceAll(a, "\r\n", "\n")
    requires c == ReplaceAll(b, "\n\n", "\n")
    requires r == ReplaceAll(c, " ", "")
    ensures IsSubseq(r, ocr) && |r| <= |ocr|
  {
    StripIsSubseq(ocr);
    assert IsSubseq("\n", "\r\n") && IsSubseq("\n", "\n\n") && IsSubseq("", " ");
    ReplaceIsSubseq(a, "\r\n", "\n");
    ReplaceIsSubseq(b, "\n\n", "\n");
    ReplaceIsSubseq(c, " ", "");
    SubseqTrans(c, b, a);
    SubseqTrans(r, c, a);
    SubseqTrans(r, a, ocr);
    SubseqLength(r, ocr);
  }

  /**
   * Line breaks are collapsed, never removed: the result has one exactly when
   * the stripped text has one.
   */
  lemma NormalizeKeepsLineBreaks(ocr: string)
    ensures '\n' in Normalize(ocr) <==> '\n' in Strip(ocr)
  {
    var a := Strip(ocr);
    var b := ReplaceAll(a, "\r\n", "\n");
    var c := ReplaceAll(b, "\n\n", "\n");
    var r := ReplaceAll(c, " ", "");
    assert Normalize(ocr) == r;
    if '\n' in a {
      assert '\n' in b by {
        ReplaceKeepsChar(a, "\r\n", "\n", '\n');
      }
      assert '\n' in c by {
        ReplaceKeepsChar(b, "\n\n", "\n", '\n');
      }
      assert '\n' !in " ";
      ReplaceKeepsChar(c, " ", "", '\n');
    } else {
      assert IsSubseq("\n", "\r\n") && IsSubseq("\n", "\n\n") && IsSubseq("", " ");
      ReplaceIsSubseq(a, "\r\n", "\n");
      ReplaceIsSubseq(b, "\n\n", "\n");
      ReplaceIsSubseq(c, " ", "");
      SubseqHasNoNew(b, a, '\n');
      SubseqHasNoNew(c, b, '\n');
      SubseqHasNoNew(r, c, '\n');
    }
  }

  /**
   * Line breaks between pieces of text are collapsed, never removed or added:
   * the normalised text has the line skeleton of the stripped OCR text, so
   * two pieces of text end up on separate lines exactly when they were.
   */
  lemma NormalizeKeepsLines(ocr: string)
    ensures Skeleton(Normalize(ocr)) == Skeleton(Strip(ocr))
  {
    var a := Strip(ocr);
    var b := ReplaceAll(a, "\r\n", "\n");
    var c := ReplaceAll(b, "\n\n", "\n");
    var r := ReplaceAll(c, " ", "");
    assert Normalize(ocr) == r;
    assert Skeleton("\n") == "\n" by {
      assert "\n"[1..] == [];
    }
    assert Skeleton("\r\n") == "\n" by {
      assert "\r\n"[1..] == "\n" && IsSpace('\r');
    }
    assert Skeleton("\n\n") == "\n" by {
      assert "\n\n"[1..] == "\n";
    }
    assert Skeleton(" ") == Skeleton("") by {
      assert " "[1..] == [];
    }
    ReplaceKeepsSkeleton(a, "\r\n", "\n");
    ReplaceKeepsSkeleton(b, "\n\n", "\n");
    ReplaceKeepsSkeleton(c, " ", "");
  }

  /** `a` CR LF `b` CR LF `c` keeps both line breaks. */
  lemma NormalizeTwoLines()
    ensures Skeleton(Normalize(['a', '\r', '\n', 'b', '\r', '\n', 'c'])) == ['a', '\n', 'b', '\n', 'c']
  {
    var s := ['a', '\r', '\n', 'b', '\r', '\n', 'c'];
    assert Strip(s) == s by {
      assert !IsSpace(s[0]) && !IsSpace(s[|s| - 1]);
      StripOfTrimmed(s);
    }
    NormalizeKeepsLines(s);
    TwoLinesSkeleton();
  }

  lemma TwoLinesSkeleton()
    ensures Skeleton(['a', '\r', '\n', 'b', '\r', '\n', 'c']) == ['a', '\n', 'b', '\n', 'c']
  {
    var s6 := ['c'];
    var s5 := ['\n'] + s6;
    var s4 := ['\r'] + s5;
    var s3 := ['b'] + s4;
    var s2 := ['\n'] + s3;
    var s1 := ['\r'] + s2;
    var s := ['a'] + s1;
    assert Skeleton(s6) == ['c'] by {
      assert s6[1..] == [];
    }
    assert Skeleton(s5) == ['\n', 'c'] by {
      assert s5[1..] == s6;
    }
    assert Skeleton(s4) == ['\n', 'c'] by {
      assert s4[1..] == s5 && IsSpace('\r');
    }
    assert Skeleton(s3) == ['b', '\n', 'c'] by {
      assert s3[1..] == s4;
    }
    assert Skeleton(s2) == ['\n', 'b', '\n', 'c'] by {
      assert s2[1..] == s3;
    }
    assert Skeleton(s1) == ['\n', 'b', '\n', 'c'] by {
      assert s1[1..] == s2 && IsSpace('\r');
    }
    assert Skeleton(s) == ['a', '\n', 'b', '\n', 'c'] by {
      assert s[1..] == s1;
    }
    assert s == ['a', '\r', '\n', 'b', '\r', '\n', 'c'];
  }

  /** Each step deletes whitespace only, so every other character survives, in order. */
  lemma NormalizeKeepsText(ocr: string, a: string, b: string, c: string, r: string)
    requires a == Strip(ocr)
    requires b == ReplaceAll(a, "\r\n", "\n")
    requires c == ReplaceAll(b, "\n\n", "\n")
    requires r == ReplaceAll(c, " ", "")
    ensures NonSpace(r) == NonSpace(ocr)
  {
    StripKeepsNonSpace(ocr);
    assert NonSpace("\n") == [] by {
      assert IsSpace('\n') && "\n"[1..] == [];
    }
    assert NonSpace("\r\n") == [] by {
      assert IsSpace('\r') && "\r\n"[1..] == "\n";
    }
    assert NonSpace("\n\n") == [] by {
      assert "\n\n"[1..] == "\n";
    }
    assert NonSpace(" ") == [] by {
      assert IsSpace(' ') && " "[1..] == [];
    }
    ReplaceKeepsNonSpace(a, "\r\n", "\n");
    ReplaceKeepsNonSpace(b, "\n\n", "\n");
    ReplaceKeepsNonSpace(c, " ", "");
  }

  lemma NormalizeKeepsEnds(a: string, b: string, c: string, r: string)
    requires Trimmed(a)
    requires b == ReplaceAll(a, "\r\n", "\n")
    requires c == ReplaceAll(b, "\n\n", "\n")
    requires r == ReplaceAll(c, " ", "")
    ensures Trimmed(r)
  {
    if a != [] {
      assert b != [] && Trimmed(b) by {
        assert IsSpace("\r\n"[0]) && IsSpace("\r\n"[1]);
        ReplaceKeepsTrimmed(a, "\r\n", "\n");
      }
      assert c != [] && Trimmed(c) by {
        assert IsSpace("\n\n"[0]) && IsSpace("\n\n"[1]);
        ReplaceKeepsTrimmed(b, "\n\n", "\n");
      }
      assert IsSpace(" "[0]);
      ReplaceKeepsTrimmed(c, " ", "");
    }
  }

  /** A pattern that starts and ends with whitespace cannot touch the ends of a stripped text. */
  lemma ReplaceKeepsTrimmed(s: string, pat: string, rep: string)
    requires |pat| > 0 && s != [] && Trimmed(s)
    requires IsSpace(pat[0]) && IsSpace(pat[|pat| - 1])
    ensures var r := ReplaceAll(s, pat, rep); r != [] && r[0] == s[0] && r[|r| - 1] == s[|s| - 1]
  {
    KeepsFirst(s, pat, rep);
    KeepsLast(s, pat, rep);
  }

  /**
   * `read_text`: the page `pageIndex` (counted from 1) is looked up; a page
   * without images gives the empty text; otherwise only the first image is
   * recognised and its text normalised.
   */
  function ReadText(doc: Document, pageIndex: int): (r: Result<string, Failure>)
    ensures r == Err(PageOutOfRange(pageIndex)) <==> !(1 <= pageIndex <= |doc.pages|)
    ensures 1 <= pageIndex <= |doc.pages| && doc.pages[pageIndex - 1].images == [] ==> r == Ok("")
    ensures r.Ok? ==> ' ' !in r.value && Trimmed(r.value)
    ensures r.Err? && r.error.LibraryError? ==>
      1 <= pageIndex <= |doc.pages| && doc.pages[pageIndex - 1].images != []
      && doc.pages[pageIndex - 1].images[0] == Raised(r.error.message)
  {
    if !(1 <= pageIndex <= |doc.pages|) then Err(PageOutOfRange(pageIndex))
    else
      var images := doc.pages[pageIndex - 1].images;
      if images == [] then Ok("")
      else
        match images[0]
        case Recognised(t) => Ok(Normalize(t))
        case Raised(m) => Err(LibraryError(m))
  }

  /** Only the first image of a page is ever read: images after it change nothing. */
  lemma FirstImageOnly(pages: seq<Page>, k: nat, first: ImageRead, more: seq<ImageRead>)
    requires k < |pages|
    ensures ReadText(Document(pages[k := Page([first] + more)]), k + 1)
         == ReadText(Document(pages[k := Page([first])]), k + 1)
    ensures first.Recognised? ==> ReadText(Document(pages[k := Page([first] + more)]), k + 1) == Ok(Normalize(first.text))
  {
  }

  /** On trimmed text with no carriage return and no space, only the LF LF pass does anything. */
  lemma NormalizeClean(s: string)
    requires Trimmed(s) && '\r' !in s && ' ' !in s
    ensures Normalize(s) == ReplaceAll(s, "\n\n", "\n")
  {
    assert Strip(s) == s by {
      StripOfTrimmed(s);
    }
    assert ReplaceAll(s, "\r\n", "\n") == s by {
      forall i | 0 <= i ensures !OccursAt(s, "\r\n", i) {
        if i + 2 <= |s| { assert s[i..i + 2][0] == s[i]; }
      }
      ReplaceWithoutOccurrence(s, "\r\n", "\n");
    }
    var c := ReplaceAll(s, "\n\n", "\n");
    assert ' ' !in c by {
      assert IsSubseq("\n", "\n\n");
      ReplaceIsSubseq(s, "\n\n", "\n");
      SubseqHasNoNew(c, s, ' ');
    }
    assert ReplaceAll(c, " ", "") == c by {
      ReplaceCharByNothing(c, ' ');
      RemoveAbsent(c, ' ');
    }
  }

  lemma {:induction false} SubseqHasNoNew(a: string, b: string, x: char)
    requires IsSubseq(a, b) && x !in b
    ensures x !in a
    decreases |b|
  {
    if |a| > 0 {
      if a[0] == b[0] {
        SubseqHasNoNew(a[1..], b[1..], x);
        assert a == [a[0]] + a[1..];
      } else {
        SubseqHasNoNew(a, b[1..], x);
      }
    }
  }

  /** The text normalisation is not idempotent: a second pass can shorten its output. */
  lemma NormalizeNotIdempotent()
    ensures Normalize("a\n\n\nb") == "a\n\nb"
    ensures Normalize(Normalize("a\n\n\nb")) == "a\nb"
  {
    var pat, rep := "\n\n", "\n";
    assert ReplaceAll("b", pat, rep) == "b";
    assert "\nb"[..2] != pat && "\nb"[1..] == "b";
    assert ReplaceAll("\nb", pat, rep) == "\nb";
    assert ReplaceAll("\n\n\nb", pat, rep) == "\n\nb";
    assert ReplaceAll("a\n\n\nb", pat, rep) == "a\n\nb";
    assert ReplaceAll("\n\nb", pat, rep) == "\nb";
    assert ReplaceAll("a\n\nb", pat, rep) == "a\nb";
    NormalizeClean("a\n\n\nb");
    NormalizeClean("a\n\nb");
  }

  // ---------------------------------------------------------------------------
  // run
  // ---------------------------------------------------------------------------

  /**
   * The stop flag reads true at checkpoint `k`.  Checkpoints 0 .. n-1 are the
   * tops of the page loop, checkpoint n is the test after the loop; `stopAt`
   * is the first checkpoint at which `stop()` has already been called.  The
   * flag is never cleared, so every later checkpoint sees it too.
   */
  predicate StopSeen(stopAt: Option<nat>, k: nat) {
    stopAt.Some? && stopAt.value <= k
  }

  /** Number of pages in `first .. last` (both included). */
  function RangeLength(first: int, last: int): (n: nat)
    ensures first <= last ==> first + n - 1 == last
    ensures first > last ==> n == 0
  {
    if first <= last then last - first + 1 else 0
  }

  /**
   * The percentage after `i + 1` of `n` pages, `int((i + 1) / n * 100)`,
   * taken with exact division.
   */
  function Progress(i: nat, n: nat): (p: int)
    requires i < n
    ensures 0 <= p <= 100
    ensures i + 1 == n ==> p == 100
  {
    DivAtMost((i + 1) * 100, n, 100);
    MulDiv(100, n);
    (i + 1) * 100 / n
  }

  lemma DivAtMost(a: nat, n: nat, b: nat)
    requires n > 0 && a <= b * n
    ensures a / n <= b
  {
    var q := a / n;
    assert q * n <= b * n;
  }

  lemma MulDiv(b: nat, n: nat)
    requires n > 0
    ensures (b * n) / n == b
  {
    var q := (b * n) / n;
    var r := (b * n) % n;
    assert b * n == q * n + r;
    assert (b - q) * n == r;
    ZeroFactor(b - q, n);
  }

  lemma ZeroFactor(x: int, n: nat)
    requires n > 0 && 0 <= x * n < n
    ensures x == 0
  {
  }

  /** The string the text signal carries for a page: `=== Page n ===`, the text, a line break. */
  function Chunk(page: int, content: string): string {
    "=== Page " + IntToString(page) + " ===\n" + content + "\n"
  }

  /** The events of one processed page: status, the text block when there is text, the percentage. */
  function PageEvents(page: int, content: string, i: nat, n: nat): seq<Event>
    requires i < n
  {
    [Status(page)] + (if content == [] then [] else [Text(page, content)]) + [Percent(Progress(i, n))]
  }

  /** Events only the page loop emits. */
  predicate LoopEvent(e: Event) {
    e.Status? || e.Text? || e.Percent?
  }

  /**
   * Events the page loop may emit when it visits pages `lo .. hi-1`: statuses
   * of those pages, text blocks and percentages between 0 and 100.
   */
  predicate LoopEvents(evs: seq<Event>, lo: int, hi: int) {
    forall k :: 0 <= k < |evs| ==> LoopEventIn(evs[k], lo, hi)
  }

  predicate LoopEventIn(e: Event, lo: int, hi: int) {
    && LoopEvent(e)
    && (e.Percent? ==> 0 <= e.value <= 100)
    && (e.Status? ==> lo <= e.page < hi)
  }

  lemma LoopEventsAppend(a: seq<Event>, b: seq<Event>, lo: int, hi: int)
    requires LoopEvents(a, lo, hi) && LoopEvents(b, lo, hi)
    ensures LoopEvents(a + b, lo, hi)
  {
    forall k | 0 <= k < |a + b| ensures LoopEventIn((a + b)[k], lo, hi) {
      if k < |a| { assert (a + b)[k] == a[k]; } else { assert (a + b)[k] == b[k - |a|]; }
    }
  }

  /** Reading one page by its number, counted from 1. */
  type Reader = int -> Result<string, Failure>

  /** `read_text` on an opened document. */
  function PageReader(doc: Document): Reader {
    p => ReadText(doc, p)
  }

  /** How the page loop ended. */
  datatype LoopEnd = Exhausted | Broke | Failed(failure: Failure)

  datatype Loop = Loop(events: seq<Event>, end: LoopEnd)

  /**
   * The page loop from iteration `i` on: check the stop flag, emit the status,
   * read the page, emit its text block and its percentage, go on.  A failing
   * read leaves the loop after the status event.
   */
  function RunPages(read: Reader, first: int, n: nat, i: nat, stopAt: Option<nat>): (o: Loop)
    requires i <= n
    ensures o.end.Broke? ==> StopSeen(stopAt, n)
    decreases n - i
  {
    if i == n then Loop([], Exhausted)
    else if StopSeen(stopAt, i) then Loop([], Broke)
    else
      var p := first + i;
      match read(p)
      case Err(f) => Loop([Status(p)], Failed(f))
      case Ok(c) =>
        var rest := RunPages(read, first, n, i + 1, stopAt);
        Loop(PageEvents(p, c, i, n) + rest.events, rest.end)
  }

  /** The page loop emits only statuses of pages in the range, text blocks and percentages between 0 and 100. */
  lemma {:induction false} RunPagesEvents(read: Reader, first: int, n: nat, i: nat, stopAt: Option<nat>)
    requires i <= n
    ensures LoopEvents(RunPages(read, first, n, i, stopAt).events, first + i, first + n)
    decreases n - i
  {
    if i < n && !StopSeen(stopAt, i) && read(first + i).Ok? {
      var p := first + i;
      var c := read(p).value;
      var rest := RunPages(read, first, n, i + 1, stopAt);
      var here := PageEvents(p, c, i, n);
      RunPagesEvents(read, first, n, i + 1, stopAt);
      assert LoopEvents(here, first + i, first + n) by {
        forall k | 0 <= k < |here| ensures LoopEventIn(here[k], first + i, first + n) {
          assert here[k] == Status(p) || here[k] == Text(p, c) || here[k] == Percent(Progress(i, n));
        }
      }
      assert LoopEvents(rest.events, first + i, first + n) by {
        forall k | 0 <= k < |rest.events| ensures LoopEventIn(rest.events[k], first + i, first + n) {
          assert LoopEventIn(rest.events[k], first + i + 1, first + n);
        }
      }
      LoopEventsAppend(here, rest.events, first + i, first + n);
    }
  }

  /** Some event reports an error. */
  predicate HasError(trace: seq<Event>) {
    exists k :: 0 <= k < |trace| && trace[k].Error?
  }

  /** Every percentage reported lies between 0 and 100. */
  predicate PercentsBounded(trace: seq<Event>) {
    forall k :: 0 <= k < |trace| && trace[k].Percent? ==> 0 <= trace[k].value <= 100
  }

  /** The ways a run can end after its page events. */
  predicate RunTail(tail: seq<Event>) {
    || (|tail| == 2 && tail[0].Error? && tail[1] == Finished)
    || tail == [Closed]
    || tail == [Closed, Finished]
  }

  lemma TraceEnds(evs: seq<Event>, tail: seq<Event>, lo: int, hi: int)
    requires LoopEvents(evs, lo, hi) && RunTail(tail)
    ensures var t := evs + tail;
      && |t| >= 1 && (t[|t| - 1] == Finished || t[|t| - 1] == Closed)
      && Finished !in t[..|t| - 1]
      && (Closed in t <==> !HasError(t))
      && PercentsBounded(t)
  {
    var t := evs + tail;
    assert forall k :: 0 <= k < |evs| ==> t[k] == evs[k] && LoopEventIn(evs[k], lo, hi);
    assert forall k :: |evs| <= k < |t| ==> t[k] == tail[k - |evs|];
    assert t[..|t| - 1] == evs + tail[..|tail| - 1];
    if tail[0].Error? {
      assert t[|evs|].Error?;
    } else {
      assert t[|evs|] == Closed;
    }
  }

  /**
   * What follows the page loop: on an exception the error and `finished`;
   * otherwise the release of the document, then `finished` unless the stop
   * flag is set at the test after the loop.
   */
  function Finish(loop: Loop, stoppedAfter: bool): seq<Event> {
    match loop.end
    case Failed(f) => loop.events + [Error(f), Finished]
    case _ => loop.events + (if stoppedAfter then [Closed] else [Closed, Finished])
  }

  /** The events of a run over an opened document, given how its pages read. */
  function Trace(read: Reader, first: int, n: nat, stopAt: Option<nat>): seq<Event> {
    Finish(RunPages(read, first, n, 0, stopAt), StopSeen(stopAt, n))
  }

  /**
   * `run`: open the document, run the page loop over `first .. last`, then
   * release the document and announce completion unless the stop flag is set.
   * Any exception (opening included) emits the error and then `finished`,
   * skipping the release.
   */
  function Run(source: Opened, first: int, last: int, stopAt: Option<nat>): (trace: seq<Event>)
    ensures |trace| >= 1 && (trace[|trace| - 1] == Finished || trace[|trace| - 1] == Closed)
    ensures Finished !in trace[..|trace| - 1]
    ensures Closed in trace <==> !HasError(trace)
    ensures PercentsBounded(trace)
  {
    match source
    case OpenFailed(m) =>
      TraceEnds([], [Error(LibraryError(m)), Finished], 0, 0);
      assert [] + [Error(LibraryError(m)), Finished] == [Error(LibraryError(m)), Finished];
      [Error(LibraryError(m)), Finished]
    case Opened(doc) =>
      TraceShape(PageReader(doc), first, RangeLength(first, last), stopAt);
      Trace(PageReader(doc), first, RangeLength(first, last), stopAt)
  }

  /** The shape every trace has: one final event, `finished` at most once, a release exactly when nothing failed. */
  lemma TraceShape(read: Reader, first: int, n: nat, stopAt: Option<nat>)
    ensures var trace := Trace(read, first, n, stopAt);
      && |trace| >= 1 && (trace[|trace| - 1] == Finished || trace[|trace| - 1] == Closed)
      && Finished !in trace[..|trace| - 1]
      && (Closed in trace <==> !HasError(trace))
      && PercentsBounded(trace)
  {
    var loop := RunPages(read, first, n, 0, stopAt);
    RunPagesEvents(read, first, n, 0, stopAt);
    match loop.end
    case Failed(f) =>
      TraceEnds(loop.events, [Error(f), Finished], first, first + n);
    case _ =>
      TraceEnds(loop.events, if StopSeen(stopAt, n) then [Closed] else [Closed, Finished], first, first + n);
  }

  // ---------------------------------------------------------------------------
  // The shape of a run
  // ---------------------------------------------------------------------------

  /** The read of the page of iteration `j` of a range starting at `first`. */
  function ReadAt(read: Reader, first: int, j: nat): Result<string, Failure> {
    read(first + j)
  }

  /** The pages of iterations 0 .. k-1 all read without an exception. */
  predicate ReadsOk(read: Reader, first: int, k: nat) {
    forall j :: 0 <= j < k ==> ReadAt(read, first, j).Ok?
  }

  /**
   * Reference trace: the events of iterations `i .. k-1` of an `n`-page range,
   * one complete page after another.
   */
  function Blocks(read: Reader, first: int, n: nat, i: nat, k: nat): seq<Event>
    requires i <= k <= n && ReadsOk(read, first, k)
    decreases k - i
  {
    if i == k then []
    else PageEvents(first + i, ReadAt(read, first, i).value, i, n) + Blocks(read, first, n, i + 1, k)
  }

  /** The checkpoint at which the loop ends when no read fails: the first stop, or the end of the range. */
  function Horizon(stopAt: Option<nat>, n: nat): (h: nat)
    ensures h <= n
    ensures forall j: nat :: j < h ==> !StopSeen(stopAt, j)
    ensures h < n ==> StopSeen(stopAt, h)
  {
    if stopAt.Some? && stopAt.value < n then stopAt.value else n
  }

  /** One iteration of the page loop that neither stops nor fails. */
  lemma RunPagesStep(read: Reader, first: int, n: nat, i: nat, stopAt: Option<nat>)
    requires i < n && !StopSeen(stopAt, i) && ReadAt(read, first, i).Ok?
    ensures var rest := RunPages(read, first, n, i + 1, stopAt);
      RunPages(read, first, n, i, stopAt)
      == Loop(PageEvents(first + i, ReadAt(read, first, i).value, i, n) + rest.events, rest.end)
  {
  }

  /**
   * Up to any checkpoint `j` before the first stop, with every read before `j`
   * succeeding, the loop emits exactly the reference blocks of the pages
   * before `j` and then carries on as the loop from `j`.
   */
  lemma {:induction false} RunPagesPrefix(read: Reader, first: int, n: nat, i: nat, j: nat, stopAt: Option<nat>)
    requires i <= j <= Horizon(stopAt, n) && ReadsOk(read, first, j)
    ensures var rest := RunPages(read, first, n, j, stopAt);
      RunPages(read, first, n, i, stopAt) == Loop(Blocks(read, first, n, i, j) + rest.events, rest.end)
    decreases j - i
  {
    if i < j {
      assert ReadAt(read, first, i).Ok?;
      RunPagesStep(read, first, n, i, stopAt);
      RunPagesPrefix(read, first, n, i + 1, j, stopAt);
      var here := PageEvents(first + i, ReadAt(read, first, i).value, i, n);
      var rest := RunPages(read, first, n, j, stopAt).events;
      assert here + (Blocks(read, first, n, i + 1, j) + rest) == (here + Blocks(read, first, n, i + 1, j)) + rest;
    } else {
      assert Blocks(read, first, n, i, j) + RunPages(read, first, n, j, stopAt).events
          == RunPages(read, first, n, j, stopAt).events;
    }
  }

  /**
   * A run in which no read fails: the pages up to the first stop checkpoint in
   * ascending order, then the release of the document, then `finished` unless
   * the stop flag is set by the test after the loop.
   */
  lemma TraceCompletes(read: Reader, first: int, n: nat, stopAt: Option<nat>)
    requires ReadsOk(read, first, Horizon(stopAt, n))
    ensures Trace(read, first, n, stopAt)
         == Blocks(read, first, n, 0, Horizon(stopAt, n)) + [Closed] + (if StopSeen(stopAt, n) then [] else [Finished])
  {
    var h := Horizon(stopAt, n);
    RunPagesPrefix(read, first, n, 0, h, stopAt);
    assert RunPages(read, first, n, h, stopAt) == Loop([], if h < n then Broke else Exhausted);
    assert Blocks(read, first, n, 0, h) + [] == Blocks(read, first, n, 0, h);
  }

  /**
   * A run whose read of iteration `j` fails before any stop: the pages before
   * it, the status of the failing page, the error, `finished` -- and no release
   * of the document.
   */
  lemma TraceFails(read: Reader, first: int, n: nat, stopAt: Option<nat>, j: nat)
    requires j < Horizon(stopAt, n)
    requires ReadsOk(read, first, j) && ReadAt(read, first, j).Err?
    ensures Trace(read, first, n, stopAt)
         == Blocks(read, first, n, 0, j) + [Status(first + j), Error(ReadAt(read, first, j).error), Finished]
  {
    RunPagesPrefix(read, first, n, 0, j, stopAt);
    assert RunPages(read, first, n, j, stopAt) == Loop([Status(first + j)], Failed(ReadAt(read, first, j).error));
    assert Blocks(read, first, n, 0, j) + [Status(first + j)] + [Error(ReadAt(read, first, j).error), Finished]
        == Blocks(read, first, n, 0, j) + [Status(first + j), Error(ReadAt(read, first, j).error), Finished];
  }

  /** The run of an opened document is the trace of its page reader over the range. */
  lemma RunOpened(doc: Document, first: int, last: int, stopAt: Option<nat>)
    ensures Run(Opened(doc), first, last, stopAt) == Trace(PageReader(doc), first, RangeLength(first, last), stopAt)
  {
  }

  /** A run reports an error exactly when it ends with an error followed by `finished`. */
  lemma RunFailsLast(source: Opened, first: int, last: int, stopAt: Option<nat>)
    ensures var t := Run(source, first, last, stopAt);
      HasError(t) <==> |t| >= 2 && t[|t| - 2].Error? && t[|t| - 1] == Finished
  {
    var t := Run(source, first, last, stopAt);
    if |t| >= 2 && t[|t| - 2].Error? {
      assert HasError(t);
    }
    match source
    case OpenFailed(m) =>
    case Opened(doc) =>
      var loop := RunPages(PageReader(doc), first, RangeLength(first, last), 0, stopAt);
      assert t == Finish(loop, StopSeen(stopAt, RangeLength(first, last)));
      if !loop.end.Failed? {
        assert t[|loop.events|] == Closed;
      }
  }

  // ---------------------------------------------------------------------------
  // Projections of a trace
  // ---------------------------------------------------------------------------

  /** The pages whose processing started, in emission order. */
  function Statuses(evs: seq<Event>): seq<int>
    decreases |evs|
  {
    if evs == [] then []
    else (if evs[0].Status? then [evs[0].page] else []) + Statuses(evs[1..])
  }

  /** The percentages reported, in emission order. */
  function Percents(evs: seq<Event>): seq<int>
    decreases |evs|
  {
    if evs == [] then []
    else (if evs[0].Percent? then [evs[0].value] else []) + Percents(evs[1..])
  }

  /** The text blocks emitted, as page and text, in emission order. */
  function Texts(evs: seq<Event>): seq<(int, string)>
    decreases |evs|
  {
    if evs == [] then []
    else (if evs[0].Text? then [(evs[0].page, evs[0].content)] else []) + Texts(evs[1..])
  }

  lemma {:induction false} StatusesAppend(a: seq<Event>, b: seq<Event>)
    ensures Statuses(a + b) == Statuses(a) + Statuses(b)
    decreases |a|
  {
    if a == [] {
      assert a + b == b;
    } else {
      var head: seq<int> := if a[0].Status? then [a[0].page] else [];
      assert (a + b)[0] == a[0] && (a + b)[1..] == a[1..] + b;
      assert Statuses(a + b) == head + Statuses(a[1..] + b);
      StatusesAppend(a[1..], b);
    }
  }

  lemma {:induction false} PercentsAppend(a: seq<Event>, b: seq<Event>)
    ensures Percents(a + b) == Percents(a) + Percents(b)
    decreases |a|
  {
    if a == [] {
      assert a + b == b;
    } else {
      var head: seq<int> := if a[0].Percent? then [a[0].value] else [];
      assert (a + b)[0] == a[0] && (a + b)[1..] == a[1..] + b;
      assert Percents(a + b) == head + Percents(a[1..] + b);
      PercentsAppend(a[1..], b);
    }
  }

  lemma {:induction false} TextsAppend(a: seq<Event>, b: seq<Event>)
    ensures Texts(a + b) == Texts(a) + Texts(b)
    decreases |a|
  {
    if a == [] {
      assert a + b == b;
    } else {
      var head: seq<(int, string)> := if a[0].Text? then [(a[0].page, a[0].content)] else [];
      assert (a + b)[0] == a[0] && (a + b)[1..] == a[1..] + b;
      assert Texts(a + b) == head + Texts(a[1..] + b);
      TextsAppend(a[1..], b);
    }
  }

  /** The projections of the events of one page. */
  lemma PageProjections(page: int, content: string, i: nat, n: nat)
    requires i < n
    ensures Statuses(PageEvents(page, content, i, n)) == [page]
    ensures Percents(PageEvents(page, content, i, n)) == [Progress(i, n)]
    ensures Texts(PageEvents(page, content, i, n)) == (if content == [] then [] else [(page, content)])
  {
    var head: seq<Event> := [Status(page)];
    var mid: seq<Event> := if content == [] then [] else [Text(page, content)];
    var tail: seq<Event> := [Percent(Progress(i, n))];
    assert head[1..] == [] && tail[1..] == [] && (mid == [] || mid[1..] == []);
    StatusesAppend(head + mid, tail);
    StatusesAppend(head, mid);
    PercentsAppend(head + mid, tail);
    PercentsAppend(head, mid);
    TextsAppend(head + mid, tail);
    TextsAppend(head, mid);
  }

  /** Consecutive page numbers `lo, lo + 1, ..., hi - 1`. */
  function PagesFrom(lo: int, hi: int): (ps: seq<int>)
    ensures |ps| == if lo <= hi then hi - lo else 0
    ensures forall j :: 0 <= j < |ps| ==> ps[j] == lo + j
    decreases hi - lo
  {
    if lo >= hi then [] else [lo] + PagesFrom(lo + 1, hi)
  }

  /** The percentages reported after iterations `i .. k-1` of an `n`-page range. */
  function Steps(i: nat, k: nat, n: nat): (ps: seq<int>)
    requires i <= k <= n
    ensures |ps| == k - i
    ensures forall j :: 0 <= j < |ps| ==> ps[j] == Progress(i + j, n)
    decreases k - i
  {
    if i == k then [] else [Progress(i, n)] + Steps(i + 1, k, n)
  }

  /** The expected text blocks of iterations `i .. k-1`: one per page whose text is not empty. */
  function ExpectedTexts(read: Reader, first: int, i: nat, k: nat): seq<(int, string)>
    requires i <= k && ReadsOk(read, first, k)
    decreases k - i
  {
    if i == k then []
    else
      var c := ReadAt(read, first, i).value;
      (if c == [] then [] else [(first + i, c)]) + ExpectedTexts(read, first, i + 1, k)
  }

  /** The reference trace visits pages `first + i .. first + k - 1` once each, in ascending order. */
  lemma {:induction false} BlocksStatuses(read: Reader, first: int, n: nat, i: nat, k: nat)
    requires i <= k <= n && ReadsOk(read, first, k)
    ensures Statuses(Blocks(read, first, n, i, k)) == PagesFrom(first + i, first + k)
    decreases k - i
  {
    if i < k {
      BlocksStatuses(read, first, n, i + 1, k);
      var here := PageEvents(first + i, ReadAt(read, first, i).value, i, n);
      StatusesAppend(here, Blocks(read, first, n, i + 1, k));
      PageProjections(first + i, ReadAt(read, first, i).value, i, n);
    }
  }

  /** The reference trace reports, page after page, the percentage of the range done. */
  lemma {:induction false} BlocksPercents(read: Reader, first: int, n: nat, i: nat, k: nat)
    requires i <= k <= n && ReadsOk(read, first, k)
    ensures Percents(Blocks(read, first, n, i, k)) == Steps(i, k, n)
    decreases k - i
  {
    if i < k {
      BlocksPercents(read, first, n, i + 1, k);
      var here := PageEvents(first + i, ReadAt(read, first, i).value, i, n);
      PercentsAppend(here, Blocks(read, first, n, i + 1, k));
      PageProjections(first + i, ReadAt(read, first, i).value, i, n);
    }
  }

  /** The reference trace carries a text block exactly for the pages whose text is not empty. */
  lemma {:induction false} BlocksTexts(read: Reader, first: int, n: nat, i: nat, k: nat)
    requires i <= k <= n && ReadsOk(read, first, k)
    ensures Texts(Blocks(read, first, n, i, k)) == ExpectedTexts(read, first, i, k)
    decreases k - i
  {
    if i < k {
      BlocksTexts(read, first, n, i + 1, k);
      var here := PageEvents(first + i, ReadAt(read, first, i).value, i, n);
      TextsAppend(here, Blocks(read, first, n, i + 1, k));
      PageProjections(first + i, ReadAt(read, first, i).value, i, n);
    }
  }

  // ---------------------------------------------------------------------------
  // Runs of a document
  // ---------------------------------------------------------------------------

  /** Events that are not loop events. */
  predicate Quiet(tail: seq<Event>) {
    forall k :: 0 <= k < |tail| ==> !LoopEvent(tail[k])
  }

  /** Events after the page loop change none of the projections. */
  lemma {:induction false} QuietProjections(evs: seq<Event>, tail: seq<Event>)
    requires Quiet(tail)
    ensures Statuses(evs + tail) == Statuses(evs)
    ensures Percents(evs + tail) == Percents(evs)
    ensures Texts(evs + tail) == Texts(evs)
    decreases |tail|
  {
    if tail != [] {
      var x := [tail[0]];
      assert x[1..] == [];
      assert evs + tail == (evs + x) + tail[1..];
      QuietProjections(evs + x, tail[1..]);
      StatusesAppend(evs, x);
      PercentsAppend(evs, x);
      TextsAppend(evs, x);
    } else {
      assert evs + tail == evs;
    }
  }

  /**
   * Without a stop request and with every page readable, the worker visits
   * `first .. last` once each in ascending order, reports one percentage per
   * page, emits a text block exactly for the pages with text, and ends with
   * the release of the document and `finished`.
   */
  lemma FullRun(read: Reader, first: int, n: nat)
    requires ReadsOk(read, first, n)
    ensures var trace := Trace(read, first, n, None);
      && Statuses(trace) == PagesFrom(first, first + n)
      && Percents(trace) == Steps(0, n, n)
      && Texts(trace) == ExpectedTexts(read, first, 0, n)
      && trace[|trace| - 2..] == [Closed, Finished]
  {
    TraceCompletes(read, first, n, None);
    var blocks := Blocks(read, first, n, 0, n);
    assert Trace(read, first, n, None) == blocks + [Closed, Finished];
    QuietProjections(blocks, [Closed, Finished]);
    BlocksStatuses(read, first, n, 0, n);
    BlocksPercents(read, first, n, 0, n);
    BlocksTexts(read, first, n, 0, n);
  }

  /**
   * A stop request seen at checkpoint `k` (before any read fails): the pages
   * before `k` are processed, the document is released, and `finished` is
   * never emitted.
   */
  lemma StoppedRun(read: Reader, first: int, n: nat, k: nat)
    requires k <= n && ReadsOk(read, first, k)
    ensures var trace := Trace(read, first, n, Some(k));
      && Statuses(trace) == PagesFrom(first, first + k)
      && trace[|trace| - 1] == Closed
      && Finished !in trace
  {
    TraceCompletes(read, first, n, Some(k));
    var blocks := Blocks(read, first, n, 0, k);
    var trace := Trace(read, first, n, Some(k));
    assert trace == blocks + [Closed];
    QuietProjections(blocks, [Closed]);
    BlocksStatuses(read, first, n, 0, k);
    BlocksQuietEnd(read, first, n, 0, k);
    assert trace[..|trace| - 1] == blocks;
  }

  /** The reference blocks hold no event that ends a run. */
  lemma {:induction false} BlocksQuietEnd(read: Reader, first: int, n: nat, i: nat, k: nat)
    requires i <= k <= n && ReadsOk(read, first, k)
    ensures Finished !in Blocks(read, first, n, i, k) && Closed !in Blocks(read, first, n, i, k)
    decreases k - i
  {
    if i < k {
      BlocksQuietEnd(read, first, n, i + 1, k);
    }
  }

  /**
   * A read that fails at iteration `j`: the pages before it are processed, the
   * failing page's status is the last status, the error is followed by
   * `finished`, and the document is never released.
   */
  lemma FailedRun(read: Reader, first: int, n: nat, stopAt: Option<nat>, j: nat)
    requires j < Horizon(stopAt, n)
    requires ReadsOk(read, first, j) && ReadAt(read, first, j).Err?
    ensures var trace := Trace(read, first, n, stopAt);
      && Statuses(trace) == PagesFrom(first, first + j + 1)
      && trace[|trace| - 2..] == [Error(ReadAt(read, first, j).error), Finished]
      && Closed !in trace
  {
    TraceFails(read, first, n, stopAt, j);
    var blocks := Blocks(read, first, n, 0, j);
    var f := ReadAt(read, first, j).error;
    var lead := blocks + [Status(first + j)];
    assert Trace(read, first, n, stopAt) == lead + [Error(f), Finished];
    FailedStatuses(read, first, n, j, [Error(f), Finished]);
    BlocksQuietEnd(read, first, n, 0, j);
    assert Closed !in lead;
  }

  lemma FailedStatuses(read: Reader, first: int, n: nat, j: nat, tail: seq<Event>)
    requires j < n && ReadsOk(read, first, j) && Quiet(tail)
    ensures Statuses(Blocks(read, first, n, 0, j) + [Status(first + j)] + tail) == PagesFrom(first, first + j + 1)
  {
    var blocks := Blocks(read, first, n, 0, j);
    var lead := blocks + [Status(first + j)];
    assert Statuses(lead + tail) == Statuses(lead) by {
      QuietProjections(lead, tail);
    }
    assert Statuses(lead) == Statuses(blocks) + [first + j] by {
      StatusesAppend(blocks, [Status(first + j)]);
      assert [Status(first + j)][1..] == [];
    }
    assert Statuses(blocks) == PagesFrom(first, first + j) by {
      BlocksStatuses(read, first, n, 0, j);
    }
    assert PagesFrom(first, first + j + 1) == PagesFrom(first, first + j) + [first + j];
  }

  lemma DivMonotone(a: nat, b: nat, n: nat)
    requires n > 0 && a <= b
    ensures a / n <= b / n
  {
    var qa, qb := a / n, b / n;
    if qa > qb {
      assert qa >= qb + 1;
      MulMonotone(qb + 1, qa, n);
    }
  }

  lemma MulMonotone(x: nat, y: nat, n: nat)
    requires x <= y
    ensures x * n <= y * n
  {
  }

  /** The percentages of a range never decrease from one page to the next. */
  lemma ProgressMonotone(i: nat, j: nat, n: nat)
    requires i <= j < n
    ensures Progress(i, n) <= Progress(j, n)
  {
    MulMonotone(i + 1, j + 1, 100);
    DivMonotone((i + 1) * 100, (j + 1) * 100, n);
  }

  /** The percentages of a complete range rise monotonically to 100. */
  lemma StepsRise(n: nat)
    ensures forall a, b :: 0 <= a <= b < n ==> Steps(0, n, n)[a] <= Steps(0, n, n)[b]
    ensures n > 0 ==> Steps(0, n, n)[n - 1] == 100
  {
    forall a, b | 0 <= a <= b < n ensures Steps(0, n, n)[a] <= Steps(0, n, n)[b] {
      ProgressMonotone(a, b, n);
    }
  }

  /** The document of the example: four pages, only the third with an image. */
  function ExampleDoc(): Document {
    Document([Page([]), Page([]), Page([Recognised("hello")]), Page([])])
  }

  /**
   * Pages 2 to 4 of a four-page document where only page 3 has an image:
   * three statuses, one text block, percentages 33, 66 and 100.
   */
  lemma ThreePageRun()
    ensures Run(Opened(ExampleDoc()), 2, 4, None)
         == [Status(2), Percent(33), Status(3), Text(3, "hello"), Percent(66), Status(4), Percent(100), Closed, Finished]
  {
    var read := PageReader(ExampleDoc());
    ExampleReads();
    RunOpened(ExampleDoc(), 2, 4, None);
    ThreePageTrace(read);
  }

  lemma ExampleReads()
    ensures PageReader(ExampleDoc())(2) == Ok("")
    ensures PageReader(ExampleDoc())(3) == Ok("hello")
    ensures PageReader(ExampleDoc())(4) == Ok("")
  {
    ExampleReadsText();
    NormalizeHello();
  }

  lemma ExampleReadsText()
    ensures ReadText(ExampleDoc(), 2) == Ok("")
    ensures ReadText(ExampleDoc(), 3) == Ok(Normalize("hello"))
    ensures ReadText(ExampleDoc(), 4) == Ok("")
  {
    var pages := ExampleDoc().pages;
    assert pages[1].images == [] && pages[3].images == [];
    assert pages[2].images[0] == Recognised("hello");
  }

  lemma ThreePageTrace(read: Reader)
    requires read(2) == Ok("") && read(3) == Ok("hello") && read(4) == Ok("")
    ensures Trace(read, 2, 3, None)
         == [Status(2), Percent(33), Status(3), Text(3, "hello"), Percent(66), Status(4), Percent(100), Closed, Finished]
  {
    assert ReadAt(read, 2, 0) == Ok("") && ReadAt(read, 2, 1) == Ok("hello") && ReadAt(read, 2, 2) == Ok("");
    TraceCompletes(read, 2, 3, None);
    assert Progress(0, 3) == 33 && Progress(1, 3) == 66 && Progress(2, 3) == 100;
  }

  lemma NormalizeHello()
    ensures Normalize("hello") == "hello"
  {
    NormalizeClean("hello");
    assert ReplaceAll("hello", "\n\n", "\n") == "hello" by {
      forall i | 0 <= i ensures !OccursAt("hello", "\n\n", i) {
        if i + 2 <= 5 { assert "hello"[i..i + 2][0] == "hello"[i]; }
      }
      ReplaceWithoutOccurrence("hello", "\n\n", "\n");
    }
  }
}

=== FILE: pytext.dfy ===
/**
 * The pieces of Python's `str` behaviour that the OCR worker and the main
 * window rely on: `isspace`, `strip`, `replace`, `split`, `join`, `str(n)`
 * and `int(text)` for base-10 text.  Strings are sequences of code points.
 */
module PyText {
  import opened Results

  /** Python's `str.isspace()` on a single code point. */
  predicate IsSpace(c: char) {
    || c == ' '
    || ('\t' <= c <= '\r')
    || ('\U{1C}' <= c <= '\U{1F}')
    || c == '\U{85}' || c == '\U{A0}' || c == '\U{1680}'
    || ('\U{2000}' <= c <= '\U{200A}')
    || c == '\U{2028}' || c == '\U{2029}' || c == '\U{202F}'
    || c == '\U{205F}' || c == '\U{3000}'
  }

  predicate AllSpace(s: string) {
    forall i :: 0 <= i < |s| ==> IsSpace(s[i])
  }

  /** True when `s` is empty or starts and ends with a non-whitespace character. */
  predicate Trimmed(s: string) {
    s == [] || (!IsSpace(s[0]) && !IsSpace(s[|s| - 1]))
  }

  // ---------------------------------------------------------------------------
  // strip()
  // ---------------------------------------------------------------------------

  /** The first position at or after `i` that does not hold whitespace, or `|s|`. */
  function SkipSpace(s: string, i: nat): (j: nat)
    requires i <= |s|
    ensures i <= j <= |s|
    ensures forall k :: i <= k < j ==> IsSpace(s[k])
    ensures j < |s| ==> !IsSpace(s[j])
    decreases |s| - i
  {
    if i < |s| && IsSpace(s[i]) then SkipSpace(s, i + 1) else i
  }

  /** The position just after the last non-whitespace character of `s[lo..j]`, or `lo`. */
  function BackSpace(s: string, lo: nat, j: nat): (e: nat)
    requires lo <= j <= |s|
    ensures lo <= e <= j
    ensures forall k :: e <= k < j ==> IsSpace(s[k])
    ensures e > lo ==> !IsSpace(s[e - 1])
    decreases j - lo
  {
    if j > lo && IsSpace(s[j - 1]) then BackSpace(s, lo, j - 1) else j
  }

  /** `r` is what is left of `s` once a whitespace prefix and a whitespace suffix are cut off. */
  predicate IsTrimOf(r: string, s: string) {
    exists i :: 0 <= i <= |s| - |r| && r == s[i..i + |r|] && AllSpace(s[..i]) && AllSpace(s[i + |r|..])
  }

  /** Python's `str.strip()` with no argument. */
  function Strip(s: string): (r: string)
    ensures Trimmed(r)
    ensures |r| <= |s|
  {
    var i := SkipSpace(s, 0);
    var e := BackSpace(s, i, |s|);
    var r := s[i..e];
    assert r != [] ==> r[0] == s[i] && r[|r| - 1] == s[e - 1];
    r
  }

  /** What `strip()` keeps is the input with a whitespace prefix and a whitespace suffix cut off. */
  lemma StripIsTrimOf(s: string)
    ensures IsTrimOf(Strip(s), s)
  {
    var i := SkipSpace(s, 0);
    var e := BackSpace(s, i, |s|);
    var r := s[i..e];
    assert Strip(s) == r;
    assert AllSpace(s[..i]) by {
      forall k | 0 <= k < i ensures IsSpace(s[..i][k]) {
        assert s[..i][k] == s[k];
      }
    }
    assert AllSpace(s[e..]) by {
      forall k | 0 <= k < |s| - e ensures IsSpace(s[e..][k]) {
        assert s[e..][k] == s[e + k];
      }
    }
    assert i + |r| == e;
  }

  lemma {:induction false} SkipSpaceAt(s: string, i: nat, j: nat)
    requires i <= j <= |s|
    requires forall k :: i <= k < j ==> IsSpace(s[k])
    requires j == |s| || !IsSpace(s[j])
    ensures SkipSpace(s, i) == j
    decreases j - i
  {
    if i < j {
      SkipSpaceAt(s, i + 1, j);
    }
  }

  lemma {:induction false} BackSpaceAt(s: string, lo: nat, e: nat, j: nat)
    requires lo <= e <= j <= |s|
    requires forall k :: e <= k < j ==> IsSpace(s[k])
    requires e == lo || !IsSpace(s[e - 1])
    ensures BackSpace(s, lo, j) == e
    decreases j - e
  {
    if e < j {
      BackSpaceAt(s, lo, e, j - 1);
    }
  }

  /** A trimmed slice with only whitespace around it is what `strip()` keeps. */
  lemma StripAt(s: string, i: nat, n: nat)
    requires i + n <= |s| && AllSpace(s[..i]) && AllSpace(s[i + n..])
    requires Trimmed(s[i..i + n])
    ensures Strip(s) == s[i..i + n]
  {
    assert forall k :: 0 <= k < i ==> IsSpace(s[k]) by {
      forall k | 0 <= k < i ensures IsSpace(s[k]) {
        assert s[..i][k] == s[k];
      }
    }
    assert forall k :: i + n <= k < |s| ==> IsSpace(s[k]) by {
      forall k | i + n <= k < |s| ensures IsSpace(s[k]) {
        assert s[i + n..][k - i - n] == s[k];
      }
    }
    if n == 0 {
      SkipSpaceAt(s, 0, |s|);
      BackSpaceAt(s, |s|, |s|, |s|);
    } else {
      assert s[i] == s[i..i + n][0] && s[i + n - 1] == s[i..i + n][n - 1];
      SkipSpaceAt(s, 0, i);
      BackSpaceAt(s, i, i + n, |s|);
    }
  }

  /** Whatever slice is chosen, a trimmed slice with whitespace outside it is the `strip()` result. */
  lemma StripUnique(r: string, s: string)
    requires Trimmed(r) && IsTrimOf(r, s)
    ensures Strip(s) == r
  {
    var i :| 0 <= i <= |s| - |r| && r == s[i..i + |r|] && AllSpace(s[..i]) && AllSpace(s[i + |r|..]);
    assert Strip(s) == s[i..i + |r|] by {
      StripAt(s, i, |r|);
    }
  }

  lemma StripOfTrimmed(s: string)
    requires Trimmed(s)
    ensures Strip(s) == s
  {
    assert s == s[0..0 + |s|] && s[..0] == [] && s[|s|..] == [];
    StripUnique(s, s);
  }

  // ---------------------------------------------------------------------------
  // Subsequences: the result of deleting characters
  // ---------------------------------------------------------------------------

  /** `a` can be obtained from `b` by deleting characters (greedy matching). */
  predicate IsSubseq(a: string, b: string)
    decreases |b|
  {
    if |a| == 0 then true
    else if |b| == 0 then false
    else if a[0] == b[0] then IsSubseq(a[1..], b[1..])
    else IsSubseq(a, b[1..])
  }

  lemma {:induction false} SubseqLength(a: string, b: string)
    requires IsSubseq(a, b)
    ensures |a| <= |b|
    decreases |b|
  {
    if |a| > 0 {
      if a[0] == b[0] { SubseqLength(a[1..], b[1..]); } else { SubseqLength(a, b[1..]); }
    }
  }

  lemma {:induction false} SubseqRefl(a: string)
    ensures IsSubseq(a, a)
    decreases |a|
  {
    if |a| > 0 { SubseqRefl(a[1..]); }
  }

  lemma {:induction false} SubseqExtend(a: string, b: string, c: char)
    requires IsSubseq(a, b)
    ensures IsSubseq(a, [c] + b)
    decreases |a| + |b|, 1
  {
    assert ([c] + b)[1..] == b;
    if |a| > 0 && a[0] == c {
      SubseqDropHead(a, b);
    }
  }

  lemma {:induction false} SubseqDropHead(a: string, b: string)
    requires |a| > 0 && IsSubseq(a, b)
    ensures IsSubseq(a[1..], b)
    decreases |a| + |b|, 0
  {
    assert b == [b[0]] + b[1..];
    if a[0] == b[0] {
      SubseqExtend(a[1..], b[1..], b[0]);
    } else {
      SubseqDropHead(a, b[1..]);
      SubseqExtend(a[1..], b[1..], b[0]);
    }
  }

  lemma {:induction false} SubseqPrefixed(a: string, p: string, b: string)
    requires IsSubseq(a, b)
    ensures IsSubseq(a, p + b)
    decreases |p|
  {
    if |p| > 0 {
      SubseqPrefixed(a, p[1..], b);
      SubseqExtend(a, p[1..] + b, p[0]);
      assert p + b == [p[0]] + (p[1..] + b);
    } else {
      assert p + b == b;
    }
  }

  lemma {:induction false} SubseqConcat(a1: string, a2: string, b1: string, b2: string)
    requires IsSubseq(a1, b1) && IsSubseq(a2, b2)
    ensures IsSubseq(a1 + a2, b1 + b2)
    decreases |b1|
  {
    if |a1| == 0 {
      assert a1 + a2 == a2;
      SubseqPrefixed(a2, b1, b2);
    } else {
      assert (b1 + b2)[0] == b1[0] && (b1 + b2)[1..] == b1[1..] + b2;
      assert (a1 + a2)[0] == a1[0];
      if a1[0] == b1[0] {
        assert (a1 + a2)[1..] == a1[1..] + a2;
        SubseqConcat(a1[1..], a2, b1[1..], b2);
      } else {
        SubseqConcat(a1, a2, b1[1..], b2);
      }
    }
  }

  lemma {:induction false} SubseqTrans(a: string, b: string, c: string)
    requires IsSubseq(a, b) && IsSubseq(b, c)
    ensures IsSubseq(a, c)
    decreases |c|
  {
    if |a| > 0 {
      SubseqLength(a, b);
      SubseqLength(b, c);
      if b[0] == c[0] {
        if a[0] == b[0] {
          SubseqTrans(a[1..], b[1..], c[1..]);
        } else {
          SubseqTrans(a, b[1..], c[1..]);
        }
      } else {
        SubseqTrans(a, b, c[1..]);
        assert c == [c[0]] + c[1..];
        SubseqExtend(a, c[1..], c[0]);
      }
    }
  }

  lemma {:induction false} SliceIsSubseq(s: string, i: nat, j: nat)
    requires i <= j <= |s|
    ensures IsSubseq(s[i..j], s)
  {
    SubseqRefl(s[i..j]);
    SubseqPrefixed(s[i..j], s[..i], s[i..j]);
    SubseqConcat(s[i..j], [], s[..i] + s[i..j], s[j..]);
    assert s[..i] + s[i..j] + s[j..] == s;
    assert s[i..j] + [] == s[i..j];
  }

  /** `strip()` only deletes characters. */
  lemma StripIsSubseq(s: string)
    ensures IsSubseq(Strip(s), s)
  {
    var i := SkipSpace(s, 0);
    SliceIsSubseq(s, i, BackSpace(s, i, |s|));
  }

  // ---------------------------------------------------------------------------
  // replace(), split(), join()
  // ---------------------------------------------------------------------------

  /** `pat` occurs in `s` starting at position `i`. */
  predicate OccursAt(s: string, pat: string, i: int) {
    0 <= i && i + |pat| <= |s| && s[i..i + |pat|] == pat
  }

  /** Python's `s.replace(pat, rep)`: leftmost occurrences, scanned left to right, never overlapping. */
  function ReplaceAll(s: string, pat: string, rep: string): string
    requires |pat| > 0
    decreases |s|
  {
    if |s| < |pat| then s
    else if s[..|pat|] == pat then rep + ReplaceAll(s[|pat|..], pat, rep)
    else [s[0]] + ReplaceAll(s[1..], pat, rep)
  }

  /** Python's `s.split(sep)`: the pieces between the same occurrences `replace` would rewrite. */
  function Split(s: string, sep: string): (parts: seq<string>)
    requires |sep| > 0
    ensures |parts| >= 1
    decreases |s|
  {
    if |s| < |sep| then [s]
    else if s[..|sep|] == sep then [[]] + Split(s[|sep|..], sep)
    else
      var rest := Split(s[1..], sep);
      [[s[0]] + rest[0]] + rest[1..]
  }

  /** Python's `sep.join(parts)`. */
  function Join(parts: seq<string>, sep: string): string
    decreases |parts|
  {
    if |parts| == 0 then []
    else if |parts| == 1 then parts[0]
    else parts[0] + sep + Join(parts[1..], sep)
  }

  lemma JoinConsHead(c: char, parts: seq<string>, sep: string)
    requires |parts| >= 1
    ensures Join([[c] + parts[0]] + parts[1..], sep) == [c] + Join(parts, sep)
  {
    var ps := [[c] + parts[0]] + parts[1..];
    assert ps[1..] == parts[1..];
  }

  /** The Python identity `s.replace(pat, rep) == rep.join(s.split(pat))`. */
  lemma {:induction false} ReplaceIsJoinOfSplit(s: string, pat: string, rep: string)
    requires |pat| > 0
    ensures ReplaceAll(s, pat, rep) == Join(Split(s, pat), rep)
    decreases |s|
  {
    if |s| < |pat| {
    } else if s[..|pat|] == pat {
      ReplaceIsJoinOfSplit(s[|pat|..], pat, rep);
      var ps := [[]] + Split(s[|pat|..], pat);
      assert ps[1..] == Split(s[|pat|..], pat);
    } else {
      ReplaceIsJoinOfSplit(s[1..], pat, rep);
      JoinConsHead(s[0], Split(s[1..], pat), rep);
    }
  }

  /** Splitting and joining back with the same separator gives the original string. */
  lemma SplitJoinRoundTrip(s: string, sep: string)
    requires |sep| > 0
    ensures Join(Split(s, sep), sep) == s
  {
    ReplaceIsJoinOfSplit(s, sep, sep);
    ReplaceSameIsIdentity(s, sep);
  }

  lemma {:induction false} ReplaceSameIsIdentity(s: string, pat: string)
    requires |pat| > 0
    ensures ReplaceAll(s, pat, pat) == s
    decreases |s|
  {
    if |s| < |pat| {
    } else if s[..|pat|] == pat {
      ReplaceSameIsIdentity(s[|pat|..], pat);
      assert s == s[..|pat|] + s[|pat|..];
    } else {
      ReplaceSameIsIdentity(s[1..], pat);
      assert s == [s[0]] + s[1..];
    }
  }

  /** Replacing by something obtained from the pattern by deletion only deletes characters. */
  lemma {:induction false} ReplaceIsSubseq(s: string, pat: string, rep: string)
    requires |pat| > 0 && IsSubseq(rep, pat)
    ensures IsSubseq(ReplaceAll(s, pat, rep), s)
    decreases |s|
  {
    if |s| < |pat| {
      SubseqRefl(s);
    } else if s[..|pat|] == pat {
      ReplaceIsSubseq(s[|pat|..], pat, rep);
      SubseqConcat(rep, ReplaceAll(s[|pat|..], pat, rep), pat, s[|pat|..]);
      assert s == pat + s[|pat|..];
    } else {
      ReplaceIsSubseq(s[1..], pat, rep);
      SubseqRefl([s[0]]);
      SubseqConcat([s[0]], ReplaceAll(s[1..], pat, rep), [s[0]], s[1..]);
      assert s == [s[0]] + s[1..];
    }
  }

  /**
   * A character survives `replace` when the replacement holds it too, or when
   * the pattern does not: an occurrence either stays or is rewritten to `rep`.
   */
  lemma {:induction false} ReplaceKeepsChar(s: string, pat: string, rep: string, x: char)
    requires |pat| > 0 && x in s
    requires x in rep || x !in pat
    ensures x in ReplaceAll(s, pat, rep)
    decreases |s|
  {
    if |s| >= |pat| {
      if s[..|pat|] == pat {
        var rest := s[|pat|..];
        assert s == pat + rest;
        if x !in rep {
          assert x in rest;
          ReplaceKeepsChar(rest, pat, rep, x);
        }
      } else if s[0] != x {
        assert s == [s[0]] + s[1..];
        ReplaceKeepsChar(s[1..], pat, rep, x);
      }
    }
  }

  /** Without an occurrence of the pattern, `replace` leaves the string alone. */
  lemma {:induction false} ReplaceWithoutOccurrence(s: string, pat: string, rep: string)
    requires |pat| > 0
    requires forall i :: 0 <= i ==> !OccursAt(s, pat, i)
    ensures ReplaceAll(s, pat, rep) == s
    decreases |s|
  {
    if |s| >= |pat| {
      assert !OccursAt(s, pat, 0);
      forall i | 0 <= i ensures !OccursAt(s[1..], pat, i) {
        assert !OccursAt(s, pat, i + 1);
        if i + |pat| <= |s| - 1 {
          assert s[1..][i..i + |pat|] == s[i + 1..i + 1 + |pat|];
        }
      }
      ReplaceWithoutOccurrence(s[1..], pat, rep);
      assert s == [s[0]] + s[1..];
    }
  }

  /** When the first character cannot start a match, `replace` keeps it in front. */
  lemma KeepsFirst(s: string, pat: string, rep: string)
    requires |pat| > 0 && |s| > 0 && s[0] != pat[0]
    ensures var r := ReplaceAll(s, pat, rep); |r| > 0 && r[0] == s[0]
  {
    if |s| >= |pat| {
      assert s[..|pat|][0] != pat[0];
    }
  }

  /** When the last character cannot end a match, `replace` keeps it at the end. */
  lemma {:induction false} KeepsLast(s: string, pat: string, rep: string)
    requires |pat| > 0 && |s| > 0 && s[|s| - 1] != pat[|pat| - 1]
    ensures var r := ReplaceAll(s, pat, rep); |r| > 0 && r[|r| - 1] == s[|s| - 1]
    decreases |s|
  {
    if |s| < |pat| {
    } else if s[..|pat|] == pat {
      assert s[..|pat|][|pat| - 1] == s[|pat| - 1];
      var t := s[|pat|..];
      assert |t| > 0 && t[|t| - 1] == s[|s| - 1];
      KeepsLast(t, pat, rep);
      assert ReplaceAll(s, pat, rep) == rep + ReplaceAll(t, pat, rep);
    } else if |s| > 1 {
      var t := s[1..];
      assert t[|t| - 1] == s[|s| - 1];
      KeepsLast(t, pat, rep);
      assert ReplaceAll(s, pat, rep) == [s[0]] + ReplaceAll(t, pat, rep);
    } else {
      assert |pat| == 1 && s[..1] == s;
    }
  }

  // ---------------------------------------------------------------------------
  // The non-whitespace content of a text
  // ---------------------------------------------------------------------------

  /** The characters of `s` that are not whitespace, in order. */
  function NonSpace(s: string): string
    decreases |s|
  {
    if s == [] then [] else (if IsSpace(s[0]) then [] else [s[0]]) + NonSpace(s[1..])
  }

  lemma {:induction false} NonSpaceAppend(a: string, b: string)
    ensures NonSpace(a + b) == NonSpace(a) + NonSpace(b)
    decreases |a|
  {
    if a == [] {
      assert a + b == b;
    } else {
      assert (a + b)[0] == a[0] && (a + b)[1..] == a[1..] + b;
      NonSpaceAppend(a[1..], b);
    }
  }

  lemma {:induction false} NonSpaceOfSpaces(s: string)
    requires forall k :: 0 <= k < |s| ==> IsSpace(s[k])
    ensures NonSpace(s) == []
    decreases |s|
  {
    if s != [] {
      assert IsSpace(s[0]);
      NonSpaceOfSpaces(s[1..]);
    }
  }

  /** `strip()` removes whitespace only: the non-whitespace content stays. */
  lemma StripKeepsNonSpace(s: string)
    ensures NonSpace(Strip(s)) == NonSpace(s)
  {
    var i := SkipSpace(s, 0);
    var e := BackSpace(s, i, |s|);
    assert Strip(s) == s[i..e];
    NonSpaceOfTrim(s, i, e);
  }

  /** Cutting whitespace off both ends keeps the non-whitespace content. */
  lemma NonSpaceOfTrim(s: string, i: nat, e: nat)
    requires i <= e <= |s|
    requires forall k :: 0 <= k < i ==> IsSpace(s[k])
    requires forall k :: e <= k < |s| ==> IsSpace(s[k])
    ensures NonSpace(s[i..e]) == NonSpace(s)
  {
    var t := s[..e];
    assert NonSpace(t) == NonSpace(s) by {
      NonSpaceDropBack(s, e);
    }
    assert NonSpace(t[i..]) == NonSpace(t) by {
      assert forall k :: 0 <= k < i ==> t[k] == s[k];
      NonSpaceDropFront(t, i);
    }
    assert t[i..] == s[i..e];
  }

  lemma {:induction false} NonSpaceDropFront(s: string, i: nat)
    requires i <= |s|
    requires forall k :: 0 <= k < i ==> IsSpace(s[k])
    ensures NonSpace(s[i..]) == NonSpace(s)
    decreases i
  {
    if i == 0 {
      assert s[0..] == s;
    } else {
      var t := s[1..];
      assert IsSpace(s[0]);
      assert forall k :: 0 <= k < i - 1 ==> t[k] == s[k + 1];
      NonSpaceDropFront(t, i - 1);
      assert t[i - 1..] == s[i..];
    }
  }

  lemma {:induction false} NonSpaceDropBack(s: string, e: nat)
    requires e <= |s|
    requires forall k :: e <= k < |s| ==> IsSpace(s[k])
    ensures NonSpace(s[..e]) == NonSpace(s)
    decreases e
  {
    if e == 0 {
      NonSpaceOfSpaces(s);
    } else {
      var t := s[1..];
      assert forall k :: e - 1 <= k < |t| ==> t[k] == s[k + 1];
      NonSpaceDropBack(t, e - 1);
      assert s[..e][0] == s[0] && s[..e][1..] == t[..e - 1];
    }
  }

  /** Replacing a pattern by text with the same non-whitespace content keeps that of the whole string. */
  lemma {:induction false} ReplaceKeepsNonSpace(s: string, pat: string, rep: string)
    requires |pat| > 0 && NonSpace(rep) == NonSpace(pat)
    ensures NonSpace(ReplaceAll(s, pat, rep)) == NonSpace(s)
    decreases |s|
  {
    if |s| < |pat| {
    } else if s[..|pat|] == pat {
      var t := s[|pat|..];
      ReplaceKeepsNonSpace(t, pat, rep);
      NonSpaceAppend(rep, ReplaceAll(t, pat, rep));
      assert s == pat + t;
      NonSpaceAppend(pat, t);
    } else {
      var t := s[1..];
      ReplaceKeepsNonSpace(t, pat, rep);
      NonSpaceAppend([s[0]], ReplaceAll(t, pat, rep));
      assert s == [s[0]] + t;
      NonSpaceAppend([s[0]], t);
    }
  }

  // ---------------------------------------------------------------------------
  // Line skeleton: the non-whitespace content and where the line breaks fall
  // ---------------------------------------------------------------------------

  /**
   * The line skeleton of `s`: its non-whitespace characters in order, with
   * one LF wherever the whitespace between two of them (or at an end) holds
   * a line break, however many it holds.
   */
  function Skeleton(s: string): string
    decreases |s|
  {
    if s == [] then [] else SkeletonCons(s[0], Skeleton(s[1..]))
  }

  /** Puts `c` in front of the skeleton `u`. */
  function SkeletonCons(c: char, u: string): string {
    if c == '\n' then (if |u| > 0 && u[0] == '\n' then u else ['\n'] + u)
    else if IsSpace(c) then u
    else [c] + u
  }

  /** Joins two skeletons: a line break at the seam is kept once. */
  function Glue(t: string, u: string): string {
    if |t| > 0 && |u| > 0 && t[|t| - 1] == '\n' && u[0] == '\n' then t + u[1..] else t + u
  }

  lemma ConsGlue(c: char, t: string, u: string)
    ensures SkeletonCons(c, Glue(t, u)) == Glue(SkeletonCons(c, t), u)
  {
    if t == [] {
      if c == '\n' && |u| > 0 && u[0] == '\n' {
        assert ['\n'] + u[1..] == u;
      }
    } else {
      assert Glue(t, u)[0] == t[0];
      if (c == '\n' && t[0] != '\n') || (c != '\n' && !IsSpace(c)) {
        GlueFront(c, t, u);
      }
    }
  }

  /** Joining does not look past the first character of a non-empty left part. */
  lemma GlueFront(c: char, t: string, u: string)
    requires t != []
    ensures Glue([c] + t, u) == [c] + Glue(t, u)
  {
    assert ([c] + t)[|t|] == t[|t| - 1];
  }

  /** The skeleton of a concatenation depends only on the skeletons of its parts. */
  lemma {:induction false} SkeletonAppend(a: string, b: string)
    ensures Skeleton(a + b) == Glue(Skeleton(a), Skeleton(b))
    decreases |a|
  {
    if a == [] {
      assert a + b == b;
    } else {
      assert (a + b)[0] == a[0] && (a + b)[1..] == a[1..] + b;
      SkeletonAppend(a[1..], b);
      ConsGlue(a[0], Skeleton(a[1..]), Skeleton(b));
    }
  }

  /**
   * Replacing a pattern by text with the same skeleton keeps the skeleton of
   * the whole string: no line break between two pieces of text is lost or
   * added.
   */
  lemma {:induction false} ReplaceKeepsSkeleton(s: string, pat: string, rep: string)
    requires |pat| > 0 && Skeleton(rep) == Skeleton(pat)
    ensures Skeleton(ReplaceAll(s, pat, rep)) == Skeleton(s)
    decreases |s|
  {
    if |s| < |pat| {
    } else if s[..|pat|] == pat {
      var t := s[|pat|..];
      ReplaceKeepsSkeleton(t, pat, rep);
      SkeletonAppend(rep, ReplaceAll(t, pat, rep));
      assert s == pat + t;
      SkeletonAppend(pat, t);
    } else {
      var t := s[1..];
      ReplaceKeepsSkeleton(t, pat, rep);
      assert ReplaceAll(s, pat, rep) == [s[0]] + ReplaceAll(t, pat, rep);
      assert ([s[0]] + ReplaceAll(t, pat, rep))[1..] == ReplaceAll(t, pat, rep);
    }
  }

  // ---------------------------------------------------------------------------
  // Deleting every copy of one character
  // ---------------------------------------------------------------------------

  /** `s` with every `c` deleted. */
  function RemoveAll(s: string, c: char): (r: string)
    ensures c !in r
    ensures IsSubseq(r, s)
    ensures forall x :: x in s && x != c ==> x in r
    ensures forall x :: x in r ==> x in s
    decreases |s|
  {
    if |s| == 0 then []
    else
      var rest := RemoveAll(s[1..], c);
      assert s == [s[0]] + s[1..];
      if s[0] == c then
        SubseqExtend(rest, s[1..], s[0]);
        rest
      else
        assert forall x :: x in s ==> x == s[0] || x in s[1..];
        [s[0]] + rest
  }

  /** Every other character is kept as often as it occurs: only the copies of `c` go. */
  lemma {:induction false} RemoveAllCounts(s: string, c: char)
    ensures multiset(RemoveAll(s, c)) == multiset(s)[c := 0]
    decreases |s|
  {
    if |s| > 0 {
      RemoveAllCounts(s[1..], c);
      assert s == [s[0]] + s[1..];
      assert multiset(s) == multiset{s[0]} + multiset(s[1..]);
      if s[0] != c {
        assert multiset([s[0]] + RemoveAll(s[1..], c)) == multiset{s[0]} + multiset(RemoveAll(s[1..], c));
      }
    }
  }

  /** Replacing a one-character pattern by nothing deletes every copy of that character. */
  lemma {:induction false} ReplaceCharByNothing(s: string, c: char)
    ensures ReplaceAll(s, [c], []) == RemoveAll(s, c)
    decreases |s|
  {
    if |s| > 0 {
      ReplaceCharByNothing(s[1..], c);
      assert s[..1] == [s[0]];
    }
  }

  // ---------------------------------------------------------------------------
  // split() on a one-character separator
  // ---------------------------------------------------------------------------

  /** No piece of `s.split(c)` contains `c`. */
  lemma {:induction false} SplitPiecesFree(s: string, c: char)
    ensures forall k :: 0 <= k < |Split(s, [c])| ==> c !in Split(s, [c])[k]
    decreases |s|
  {
    if |s| > 0 {
      SplitPiecesFree(s[1..], c);
      assert s[..1] == [s[0]];
    }
  }

  /** Splitting at one separator in the middle splits the two halves independently. */
  lemma {:induction false} SplitAround(a: string, c: char, b: string)
    ensures Split(a + [c] + b, [c]) == Split(a, [c]) + Split(b, [c])
    decreases |a|
  {
    var s := a + [c] + b;
    assert s[..1] == [s[0]];
    if |a| == 0 {
      assert s[1..] == b;
    } else {
      assert s[1..] == a[1..] + [c] + b;
      assert a[..1] == [a[0]];
      SplitAround(a[1..], c, b);
      if a[0] == c {
      } else {
        var ra := Split(a[1..], [c]);
        var rest := Split(s[1..], [c]);
        assert rest == ra + Split(b, [c]);
        assert rest[0] == ra[0];
        assert rest[1..] == ra[1..] + Split(b, [c]);
      }
    }
  }

  /** A string without the separator is a single piece. */
  lemma {:induction false} SplitWithoutSeparator(s: string, c: char)
    requires c !in s
    ensures Split(s, [c]) == [s]
    decreases |s|
  {
    if |s| > 0 {
      assert s[..1] == [s[0]];
      SplitWithoutSeparator(s[1..], c);
      assert s == [s[0]] + s[1..];
    }
  }

  // ---------------------------------------------------------------------------
  // str(n) and int(text) in base 10
  // ---------------------------------------------------------------------------

  predicate IsDigit(c: char) {
    '0' <= c <= '9'
  }

  function DigitChar(d: nat): (c: char)
    requires d < 10
    ensures IsDigit(c) && c as int - '0' as int == d
  {
    ('0' as int + d) as char
  }

  /** Python's `str(n)` for a non-negative integer: no sign, no leading zero. */
  function NatToString(n: nat): (r: string)
    ensures 1 <= |r|
    ensures forall i :: 0 <= i < |r| ==> IsDigit(r[i])
    ensures |r| > 1 ==> r[0] != '0'
    decreases n
  {
    if n < 10 then [DigitChar(n)] else NatToString(n / 10) + [DigitChar(n % 10)]
  }

  /** Python's `str(i)` for any integer. */
  function IntToString(i: int): (r: string)
    ensures 1 <= |r|
    ensures r[0] == '-' <==> i < 0
  {
    if i < 0 then "-" + NatToString(-i) else NatToString(i)
  }

  /** The number a string of decimal digits denotes. */
  function DigitsValue(s: string): nat
    requires forall i :: 0 <= i < |s| ==> IsDigit(s[i])
    decreases |s|
  {
    if |s| == 0 then 0
    else
      assert IsDigit(s[|s| - 1]);
      DigitsValue(s[..|s| - 1]) * 10 + (s[|s| - 1] as int - '0' as int)
  }

  /**
   * A base-10 literal as `int()` accepts it: digits, where single underscores
   * may separate two digits.
   */
  predicate DecimalLiteral(s: string) {
    && |s| > 0
    && IsDigit(s[0]) && IsDigit(s[|s| - 1])
    && (forall i :: 0 <= i < |s| ==> IsDigit(s[i]) || s[i] == '_')
    && NoDoubleUnderscore(s)
  }

  /** No two neighbouring characters are both `_`. */
  predicate NoDoubleUnderscore(s: string)
    decreases |s|
  {
    |s| < 2 || (!(s[0] == '_' && s[1] == '_') && NoDoubleUnderscore(s[1..]))
  }

  /**
   * The information separators U+001C..U+001F: whitespace to `str.isspace()`
   * and so to `strip()`, but not among the characters `int()` skips.
   */
  predicate IsSeparator(c: char) {
    '\U{1C}' <= c <= '\U{1F}'
  }

  /** No information separator lies in the whitespace that `strip()` cuts off `text`. */
  predicate SkipsOnlyIntSpace(text: string) {
    var i := SkipSpace(text, 0);
    var e := BackSpace(text, i, |text|);
    && (forall k :: 0 <= k < i ==> !IsSeparator(text[k]))
    && (forall k :: e <= k < |text| ==> !IsSeparator(text[k]))
  }

  /**
   * Python's `int(text)` on base-10 text: surrounding whitespace other than
   * the information separators is ignored, then one optional sign and a
   * decimal literal; anything else raises `ValueError`, modelled as `None`.
   */
  function PyInt(text: string): Option<int> {
    if SkipsOnlyIntSpace(text) then SignedLiteral(Strip(text)) else None
  }

  /** Text with no whitespace at either end is read as a signed literal, nothing cut off. */
  lemma PyIntOfTrimmed(t: string)
    requires Trimmed(t)
    ensures PyInt(t) == SignedLiteral(t)
  {
    StripOfTrimmed(t);
    if t != [] {
      assert SkipSpace(t, 0) == 0;
      assert BackSpace(t, 0, |t|) == |t|;
    }
  }

  /**
   * Whitespace that `int()` skips may surround the literal on either side:
   * what is read is the literal alone.
   */
  lemma PyIntPadded(a: string, t: string, b: string)
    requires forall k :: 0 <= k < |a| ==> IsSpace(a[k]) && !IsSeparator(a[k])
    requires forall k :: 0 <= k < |b| ==> IsSpace(b[k]) && !IsSeparator(b[k])
    requires Trimmed(t)
    ensures PyInt(a + t + b) == SignedLiteral(t)
  {
    var s := a + t + b;
    var i, e := |a|, |a| + |t|;
    assert forall k :: 0 <= k < i ==> s[k] == a[k];
    assert forall k :: e <= k < |s| ==> s[k] == b[k - e];
    if t == [] {
      SkipSpaceAt(s, 0, |s|);
      BackSpaceAt(s, |s|, |s|, |s|);
      assert Strip(s) == [];
    } else {
      assert s[i] == t[0] && s[e - 1] == t[|t| - 1];
      SkipSpaceAt(s, 0, i);
      BackSpaceAt(s, i, e, |s|);
      assert Strip(s) == s[i..e] == t;
    }
    assert SkipsOnlyIntSpace(s);
  }

  /**
   * An information separator in front of the digits makes `int()` fail,
   * although `strip()` would cut it off.
   */
  lemma SeparatorNotSkipped(c: char, d: string)
    requires IsSeparator(c)
    requires |d| > 0 && forall k :: 0 <= k < |d| ==> IsDigit(d[k])
    ensures Strip([c] + d) == d
    ensures PyInt([c] + d) == None
  {
    var s := [c] + d;
    assert s[1..] == d && s[1] == d[0] && s[|s| - 1] == d[|d| - 1];
    SkipSpaceAt(s, 0, 1);
    BackSpaceAt(s, 1, |s|, |s|);
    assert !SkipsOnlyIntSpace(s) by {
      assert IsSeparator(s[0]);
    }
  }

  /** An optional `+` or `-` followed by a decimal literal, with nothing around it. */
  function SignedLiteral(t: string): Option<int> {
    if |t| > 0 && t[0] == '-' then
      if DecimalLiteral(t[1..]) then Some(-(LiteralValue(t[1..]) as int)) else None
    else if |t| > 0 && t[0] == '+' then
      if DecimalLiteral(t[1..]) then Some(LiteralValue(t[1..]) as int) else None
    else if DecimalLiteral(t) then Some(LiteralValue(t) as int)
    else None
  }

  /** The value of a decimal literal: its digits with the underscores dropped. */
  function LiteralValue(s: string): nat
    requires DecimalLiteral(s)
  {
    var digits := RemoveAll(s, '_');
    assert forall i :: 0 <= i < |digits| ==> IsDigit(digits[i]) by {
      forall i | 0 <= i < |digits| ensures IsDigit(digits[i]) {
        assert digits[i] in s;
      }
    }
    DigitsValue(digits)
  }

  /** A literal made of digits only is read as the number its digits denote. */
  lemma LiteralOfDigits(s: string)
    requires |s| > 0 && forall i :: 0 <= i < |s| ==> IsDigit(s[i])
    ensures DecimalLiteral(s) && LiteralValue(s) == DigitsValue(s)
  {
    DigitsHaveNoUnderscore(s);
    assert '_' !in s;
    RemoveAbsent(s, '_');
  }

  lemma {:induction false} DigitsOfNatToString(n: nat)
    ensures DigitsValue(NatToString(n)) == n
    decreases n
  {
    if n >= 10 {
      DigitsOfNatToString(n / 10);
      var s := NatToString(n);
      assert s[..|s| - 1] == NatToString(n / 10);
    }
  }

  lemma {:induction false} DigitsHaveNoUnderscore(s: string)
    requires forall i :: 0 <= i < |s| ==> IsDigit(s[i])
    ensures NoDoubleUnderscore(s)
    decreases |s|
  {
    if |s| >= 2 {
      assert IsDigit(s[0]);
      DigitsHaveNoUnderscore(s[1..]);
    }
  }

  /** `int(str(n)) == n` for every non-negative `n`. */
  lemma PyIntOfNatToString(n: nat)
    ensures PyInt(NatToString(n)) == Some(n)
  {
    PyIntOfDigits(NatToString(n));
    DigitsOfNatToString(n);
  }

  lemma SignedLiteralUnsigned(t: string)
    requires |t| > 0 && IsDigit(t[0]) && DecimalLiteral(t)
    ensures SignedLiteral(t) == Some(LiteralValue(t) as int)
  {
  }

  lemma SignedLiteralNegative(t: string)
    requires |t| > 0 && t[0] == '-' && DecimalLiteral(t[1..])
    ensures SignedLiteral(t) == Some(-(LiteralValue(t[1..]) as int))
  {
  }

  /** `int()` reads a plain run of decimal digits as the number it denotes. */
  lemma PyIntOfDigits(s: string)
    requires |s| > 0 && forall i :: 0 <= i < |s| ==> IsDigit(s[i])
    ensures PyInt(s) == Some(DigitsValue(s) as int)
  {
    assert !IsSpace(s[0]) && !IsSpace(s[|s| - 1]);
    PyIntOfTrimmed(s);
    LiteralOfDigits(s);
    SignedLiteralUnsigned(s);
  }

  lemma {:induction false} RemoveAbsent(s: string, c: char)
    requires c !in s
    ensures RemoveAll(s, c) == s
    decreases |s|
  {
    if |s| > 0 {
      RemoveAbsent(s[1..], c);
      assert s == [s[0]] + s[1..];
    }
  }

  /** `int()` reads a minus sign followed by decimal digits as a negative number. */
  lemma PyIntOfMinusDigits(s: string, d: string)
    requires |d| > 0 && (forall k :: 0 <= k < |d| ==> IsDigit(d[k])) && s == "-" + d
    ensures PyInt(s) == Some(-(DigitsValue(d) as int))
  {
    assert s[1..] == d && s[0] == '-';
    assert PyInt(s) == SignedLiteral(s) by {
      assert s[|s| - 1] == d[|d| - 1] && IsDigit(d[|d| - 1]);
      PyIntOfTrimmed(s);
    }
    assert DecimalLiteral(d) && LiteralValue(d) == DigitsValue(d) by {
      LiteralOfDigits(d);
    }
    assert SignedLiteral(s) == Some(-(DigitsValue(d) as int)) by {
      SignedLiteralNegative(s);
    }
  }

  /** `int(str(i)) == i` for every integer. */
  lemma PyIntOfIntToString(i: int)
    ensures PyInt(IntToString(i)) == Some(i)
  {
    if i >= 0 {
      assert IntToString(i) == NatToString(i);
      PyIntOfNatToString(i);
    } else {
      var n: nat := -i;
      var d := NatToString(n);
      DigitsOfNatToString(n);
      PyIntOfMinusDigits(IntToString(i), d);
    }
  }
}

=== FILE: results.dfy ===
/** Optional values and error-carrying results shared by the other modules. */
module Results {

  /** A value that may be absent. */
  datatype Option<+T> = None | Some(value: T)

  /** Either a successful value or the error that stopped the computation. */
  datatype Result<+T, +E> = Ok(value: T) | Err(error: E)
}

=== FILE: window.dfy ===
/**
 * The sequential logic of the main window of gui/window.py: the checks that
 * decide whether the OCR worker starts, the default page range after opening
 * a file, how the worker's signals reach the window, and the outline file
 * written from the text box.
 *
 * Widgets become plain values: the open file name, the texts of the two page
 * entries, the page count of the loaded document and the text box content.
 * What a slot does to the outside is a list of actions.
 */
module Window {
  import opened Results
  import opened PyText
  import opened Ocr

  /** The messages the window shows in its message label. */
  datatype Message =
    | OpenFirst                          // "open a PDF file first"
    | EnterPageNumbers                   // "enter the page numbers"
    | FirstAfterLast                     // "the first page cannot exceed the last page"
    | OutOfRange(total: int)             // "page numbers must lie between 1 and total"
    | Extracting(first: int, last: int)  // "extracting text (first - last)"
    | Completed                          // "text extraction completed"
    | WorkerError(failure: Failure)      // the text of the exception the worker reports

  /** What `start_read_thread` does, in order. */
  datatype Action =
    | Show(msg: Message)                 // update_message
    | ClearText                          // clear_text
    | Start(first: int, last: int)       // a new worker over first .. last is started
    | ValueError                         // `int()` raised: the slot ends with the exception

  /** The widget state the slots read. */
  datatype State = State(filename: string, firstEntry: string, lastEntry: string, pageCount: nat)

  // ---------------------------------------------------------------------------
  // start_read_thread
  // ---------------------------------------------------------------------------

  /**
   * `start_read_thread`: no file, then clear the text box, then empty entries,
   * then `int()` of both entries, then first after last, then the range check
   * against the page count; only a range passing all of them starts a worker.
   */
  function StartReadThread(st: State): (acts: seq<Action>)
    ensures ClearText in acts <==> st.filename != ""
  {
    if st.filename == "" then [Show(OpenFirst)]
    else [ClearText] + Check(st.firstEntry != "" && st.lastEntry != "", PyInt(st.firstEntry), PyInt(st.lastEntry), st.pageCount)
  }

  /**
   * The checks after the text box is cleared, given whether both entries hold
   * text and what `int()` makes of each: `None` is the `ValueError` it raises.
   */
  function Check(entered: bool, firstValue: Option<int>, lastValue: Option<int>, total: nat): (acts: seq<Action>)
    ensures ClearText !in acts
  {
    if !entered then [Show(EnterPageNumbers)]
    else
      match firstValue
      case None => [ValueError]
      case Some(first) =>
        match lastValue
        case None => [ValueError]
        case Some(last) =>
          if first > last then [Show(FirstAfterLast)]
          else if first < 1 || last > total then [Show(OutOfRange(total))]
          else [Show(Extracting(first, last)), Start(first, last)]
  }

  /** The checks start a worker over `first .. last` exactly when both values parse to `1 <= first <= last <= total`. */
  lemma CheckIff(entered: bool, firstValue: Option<int>, lastValue: Option<int>, total: nat, first: int, last: int)
    ensures Start(first, last) in Check(entered, firstValue, lastValue, total)
        <==> entered && firstValue == Some(first) && lastValue == Some(last) && 1 <= first <= last <= total
    ensures entered && firstValue == Some(first) && lastValue == Some(last) && 1 <= first <= last <= total
        ==> Check(entered, firstValue, lastValue, total) == [Show(Extracting(first, last)), Start(first, last)]
  {
  }

  /** A reversed pair of values is reported as such, whatever the page count. */
  lemma CheckReversed(firstValue: Option<int>, lastValue: Option<int>, total: nat)
    requires firstValue.Some? && lastValue.Some? && firstValue.value > lastValue.value
    ensures Check(true, firstValue, lastValue, total) == [Show(FirstAfterLast)]
  {
  }

  /** A range the window accepts: a file is open and both entries parse to `1 <= first <= last <= pageCount`. */
  predicate Accepts(st: State, first: int, last: int) {
    && st.filename != ""
    && PyInt(st.firstEntry) == Some(first)
    && PyInt(st.lastEntry) == Some(last)
    && 1 <= first <= last <= st.pageCount
  }

  /** An empty entry never parses: `int("")` raises. */
  lemma EmptyDoesNotParse()
    ensures PyInt("") == None
  {
    assert Strip("") == "";
  }

  /** Text that `int()` accepts is not empty. */
  lemma ParsedNotEmpty(t: string)
    requires PyInt(t).Some?
    ensures |t| > 0
  {
    var r := Strip(t);
    assert |r| > 0;
    assert |r| <= |t|;
  }

  /** The slot, once a file is open, clears the text box and runs the checks. */
  lemma OpenFileChecks(st: State)
    requires st.filename != ""
    ensures StartReadThread(st)
         == [ClearText] + Check(st.firstEntry != "" && st.lastEntry != "", PyInt(st.firstEntry), PyInt(st.lastEntry), st.pageCount)
  {
  }

  /** Only an accepted range starts a worker. */
  lemma StartOnlyIfAccepted(st: State, first: int, last: int)
    requires Start(first, last) in StartReadThread(st)
    ensures Accepts(st, first, last)
  {
    if st.filename != "" {
      var entered := st.firstEntry != "" && st.lastEntry != "";
      var acts := Check(entered, PyInt(st.firstEntry), PyInt(st.lastEntry), st.pageCount);
      OpenFileChecks(st);
      assert Start(first, last) in acts;
      CheckIff(entered, PyInt(st.firstEntry), PyInt(st.lastEntry), st.pageCount, first, last);
    }
  }

  /**
   * An accepted range starts a worker: the slot clears the text, announces
   * the range and starts the worker, in that order.
   */
  lemma StartIfAccepted(st: State, first: int, last: int)
    requires Accepts(st, first, last)
    ensures StartReadThread(st) == [ClearText, Show(Extracting(first, last)), Start(first, last)]
  {
    ParsedNotEmpty(st.firstEntry);
    ParsedNotEmpty(st.lastEntry);
    var entered := st.firstEntry != "" && st.lastEntry != "";
    assert entered;
    OpenFileChecks(st);
    CheckIff(entered, PyInt(st.firstEntry), PyInt(st.lastEntry), st.pageCount, first, last);
  }

  /** A worker over `first .. last` is started exactly when the window accepts that range. */
  lemma StartIff(st: State, first: int, last: int)
    ensures Start(first, last) in StartReadThread(st) <==> Accepts(st, first, last)
  {
    if Accepts(st, first, last) {
      StartIfAccepted(st, first, last);
    }
    if Start(first, last) in StartReadThread(st) {
      StartOnlyIfAccepted(st, first, last);
    }
  }

  /** The missing file is reported before anything else, and the text box is left alone. */
  lemma NoFileFirst(st: State)
    requires st.filename == ""
    ensures StartReadThread(st) == [Show(OpenFirst)]
  {
  }

  /** An empty entry is reported before either entry is parsed. */
  lemma EmptyEntryBeforeParsing(st: State)
    requires st.filename != "" && (st.firstEntry == "" || st.lastEntry == "")
    ensures StartReadThread(st) == [ClearText, Show(EnterPageNumbers)]
  {
    OpenFileChecks(st);
  }

  /** A reversed range is reported even when it is also out of range. */
  lemma ReversedBeforeOutOfRange(st: State, first: int, last: int)
    requires st.filename != "" && PyInt(st.firstEntry) == Some(first) && PyInt(st.lastEntry) == Some(last)
    requires first > last
    ensures StartReadThread(st) == [ClearText, Show(FirstAfterLast)]
  {
    var firstValue, lastValue := PyInt(st.firstEntry), PyInt(st.lastEntry);
    assert st.firstEntry != "" && st.lastEntry != "" by {
      ParsedNotEmpty(st.firstEntry);
      ParsedNotEmpty(st.lastEntry);
    }
    assert StartReadThread(st) == [ClearText] + Check(true, firstValue, lastValue, st.pageCount) by {
      OpenFileChecks(st);
    }
    assert Check(true, firstValue, lastValue, st.pageCount) == [Show(FirstAfterLast)] by {
      CheckReversed(firstValue, lastValue, st.pageCount);
    }
  }

  /** A non-empty entry that `int()` refuses ends the slot with `ValueError`, after the clearing. */
  lemma UnparsableRaises(st: State)
    requires st.filename != "" && st.firstEntry != "" && st.lastEntry != ""
    requires PyInt(st.firstEntry) == None || PyInt(st.lastEntry) == None
    ensures StartReadThread(st) == [ClearText, ValueError]
  {
    OpenFileChecks(st);
  }

  /** An ordered range outside `1 .. pageCount` is reported with the page count. */
  lemma OutOfRangeReported(st: State, first: int, last: int)
    requires st.filename != "" && PyInt(st.firstEntry) == Some(first) && PyInt(st.lastEntry) == Some(last)
    requires first <= last && (first < 1 || last > st.pageCount)
    ensures StartReadThread(st) == [ClearText, Show(OutOfRange(st.pageCount))]
  {
    assert st.firstEntry != "" && st.lastEntry != "" by {
      ParsedNotEmpty(st.firstEntry);
      ParsedNotEmpty(st.lastEntry);
    }
    OpenFileChecks(st);
  }

  /**
   * A started range lies inside the document the worker opens, so no read of
   * the run looks past the last page or before the first.
   */
  lemma StartedRangeInDocument(st: State, doc: Document, first: int, last: int)
    requires Start(first, last) in StartReadThread(st) && |doc.pages| == st.pageCount
    ensures 1 <= first <= last <= |doc.pages|
    ensures forall p :: first <= p <= last ==> ReadText(doc, p) != Err(PageOutOfRange(p))
  {
    StartOnlyIfAccepted(st, first, last);
  }

  // ---------------------------------------------------------------------------
  // open_pdf
  // ---------------------------------------------------------------------------

  /**
   * `open_pdf`: an empty choice in the file dialog changes nothing; otherwise
   * the file becomes the open file and the entries are set to `1` and to the
   * page count in decimal.
   */
  function OpenPdf(st: State, chosen: string, pageCount: nat): (r: State)
    ensures chosen == "" ==> r == st
    ensures chosen != "" ==> r.filename == chosen && r.pageCount == pageCount
    ensures chosen != "" ==> PyInt(r.firstEntry) == Some(1) && PyInt(r.lastEntry) == Some(pageCount)
  {
    if chosen == "" then st
    else
      PyIntOfOne();
      PyIntOfNatToString(pageCount);
      State(chosen, "1", NatToString(pageCount), pageCount)
  }

  lemma PyIntOfOne()
    ensures PyInt("1") == Some(1)
  {
    assert NatToString(1) == "1";
    PyIntOfNatToString(1);
  }

  /**
   * Right after a file with at least one page is opened, extraction covers the
   * whole document; a document without pages gives the reversed-range message.
   */
  lemma OpenThenStart(st: State, chosen: string, pageCount: nat)
    requires chosen != ""
    ensures pageCount >= 1 ==>
      StartReadThread(OpenPdf(st, chosen, pageCount)) == [ClearText, Show(Extracting(1, pageCount)), Start(1, pageCount)]
    ensures pageCount == 0 ==>
      StartReadThread(OpenPdf(st, chosen, pageCount)) == [ClearText, Show(FirstAfterLast)]
  {
    var r := OpenPdf(st, chosen, pageCount);
    assert r.firstEntry != [] && r.lastEntry != [];
  }

  // ---------------------------------------------------------------------------
  // The worker's signals in the window
  // ---------------------------------------------------------------------------

  /** What the window does when a worker signal arrives. */
  datatype Effect = AppendText(text: string) | SetMessage(msg: Message)

  /**
   * The connections of a started worker: text blocks are appended to the text
   * box, an error's text and the completion message go to the message label.
   * The status and percentage signals are not connected.
   */
  function Shown(trace: seq<Event>): (effects: seq<Effect>)
    ensures |effects| <= |trace|
    decreases |trace|
  {
    if trace == [] then [] else EventEffects(trace[0]) + Shown(trace[1..])
  }

  /**
   * The effect of one worker event on the window: at most one, and none for
   * the signals the window does not connect.
   */
  function EventEffects(e: Event): (effects: seq<Effect>)
    ensures |effects| <= 1
    ensures effects == [] <==> e.Status? || e.Percent? || e.Closed?
  {
    match e
    case Text(p, c) => [AppendText(Chunk(p, c))]
    case Error(f) => [SetMessage(WorkerError(f))]
    case Finished => [SetMessage(Completed)]
    case _ => []
  }

  lemma {:induction false} ShownAppend(a: seq<Event>, b: seq<Event>)
    ensures Shown(a + b) == Shown(a) + Shown(b)
    decreases |a|
  {
    if a == [] {
      assert a + b == b;
    } else {
      assert (a + b)[1..] == a[1..] + b;
      ShownAppend(a[1..], b);
    }
  }

  /** The last message the label shows after the effects, if any. */
  function LastMessage(effects: seq<Effect>): (m: Option<Message>)
    ensures m.Some? <==> exists k :: 0 <= k < |effects| && effects[k].SetMessage?
    ensures m.Some? ==> SetMessage(m.value) in effects
    decreases |effects|
  {
    if effects == [] then None
    else if effects[|effects| - 1].SetMessage? then Some(effects[|effects| - 1].msg)
    else
      var m := LastMessage(effects[..|effects| - 1]);
      assert forall k :: 0 <= k < |effects| - 1 ==> effects[..|effects| - 1][k] == effects[k];
      m
  }

  /** The strings appended to the text box, in order. */
  function Appended(effects: seq<Effect>): seq<string>
    decreases |effects|
  {
    if effects == [] then []
    else (if effects[0].AppendText? then [effects[0].text] else []) + Appended(effects[1..])
  }

  lemma {:induction false} AppendedAppend(a: seq<Effect>, b: seq<Effect>)
    ensures Appended(a + b) == Appended(a) + Appended(b)
    decreases |a|
  {
    if a == [] {
      assert a + b == b;
    } else {
      assert (a + b)[1..] == a[1..] + b;
      AppendedAppend(a[1..], b);
    }
  }

  /** The rendered blocks of a list of page texts. */
  function Chunks(texts: seq<(int, string)>): (r: seq<string>)
    ensures |r| == |texts|
    ensures forall k :: 0 <= k < |r| ==> r[k] == Chunk(texts[k].0, texts[k].1)
  {
    seq(|texts|, k requires 0 <= k < |texts| => Chunk(texts[k].0, texts[k].1))
  }

  /** The text box receives exactly the rendered text blocks of the trace, in order. */
  lemma {:induction false} ShownTexts(trace: seq<Event>)
    ensures Appended(Shown(trace)) == Chunks(Texts(trace))
    decreases |trace|
  {
    if trace != [] {
      var e, rest := trace[0], trace[1..];
      var own: seq<(int, string)> := if e.Text? then [(e.page, e.content)] else [];
      assert Texts(trace) == own + Texts(rest);
      assert Appended(Shown(trace)) == Appended(EventEffects(e)) + Appended(Shown(rest)) by {
        AppendedAppend(EventEffects(e), Shown(rest));
      }
      assert Appended(EventEffects(e)) == Chunks(own) by {
        EventAppended(e);
      }
      assert Appended(Shown(rest)) == Chunks(Texts(rest)) by {
        ShownTexts(rest);
      }
      ChunksAppend(own, Texts(rest));
    }
  }

  lemma EventAppended(e: Event)
    ensures Appended(EventEffects(e)) == Chunks(if e.Text? then [(e.page, e.content)] else [])
  {
    var effects := EventEffects(e);
    assert effects == [] || effects[1..] == [];
  }

  lemma ChunksAppend(a: seq<(int, string)>, b: seq<(int, string)>)
    ensures Chunks(a + b) == Chunks(a) + Chunks(b)
  {
    var l, r := Chunks(a + b), Chunks(a) + Chunks(b);
    assert |l| == |r|;
    forall k | 0 <= k < |l| ensures l[k] == r[k] {
      if k < |a| {
        assert (a + b)[k] == a[k];
      } else {
        assert (a + b)[k] == b[k - |a|];
      }
    }
  }

  /**
   * Any run that reports an error, whether opening the file or reading a
   * page failed: the window shows that error and then, at once, the
   * completion message, which is what stays on the label.
   */
  lemma ErrorOverwritten(source: Opened, first: int, last: int, stopAt: Option<nat>)
    ensures var t := Run(source, first, last, stopAt);
      var effects := Shown(t);
      HasError(t) ==>
        && |t| >= 2 && t[|t| - 2].Error?
        && |effects| >= 2
        && effects[|effects| - 2..] == [SetMessage(WorkerError(t[|t| - 2].failure)), SetMessage(Completed)]
        && LastMessage(effects) == Some(Completed)
  {
    var t := Run(source, first, last, stopAt);
    RunFailsLast(source, first, last, stopAt);
    if HasError(t) {
      ShownErrorEnd(t);
    }
  }

  lemma ShownErrorEnd(t: seq<Event>)
    requires |t| >= 2 && t[|t| - 2].Error? && t[|t| - 1] == Finished
    ensures var effects := Shown(t);
      && |effects| >= 2
      && effects[|effects| - 2..] == [SetMessage(WorkerError(t[|t| - 2].failure)), SetMessage(Completed)]
      && LastMessage(effects) == Some(Completed)
  {
    var f := t[|t| - 2].failure;
    assert t == t[..|t| - 2] + [Error(f), Finished];
    ShownErrorLast(t[..|t| - 2], f);
  }

  /** Events ending with an error and `finished` end the label on the completion message. */
  lemma ShownErrorLast(lead: seq<Event>, f: Failure)
    ensures var effects := Shown(lead + [Error(f), Finished]);
      && |effects| >= 2
      && effects[|effects| - 2..] == [SetMessage(WorkerError(f)), SetMessage(Completed)]
      && LastMessage(effects) == Some(Completed)
  {
    var tail := [SetMessage(WorkerError(f)), SetMessage(Completed)];
    assert Shown(lead + [Error(f), Finished]) == Shown(lead) + tail by {
      ShownAppend(lead, [Error(f), Finished]);
      ShownPair(f);
    }
    var effects := Shown(lead) + tail;
    assert effects[|effects| - 2..] == tail;
    assert effects[|effects| - 1] == SetMessage(Completed);
  }

  /**
   * A run whose read of page `j` fails: the window shows that page's error
   * and then, at once, the completion message.
   */
  lemma ReadErrorOverwritten(read: Reader, first: int, n: nat, stopAt: Option<nat>, j: nat)
    requires j < Horizon(stopAt, n)
    requires ReadsOk(read, first, j) && ReadAt(read, first, j).Err?
    ensures var effects := Shown(Trace(read, first, n, stopAt));
      && |effects| >= 2
      && effects[|effects| - 2..] == [SetMessage(WorkerError(ReadAt(read, first, j).error)), SetMessage(Completed)]
      && LastMessage(effects) == Some(Completed)
  {
    var trace := Trace(read, first, n, stopAt);
    var f := ReadAt(read, first, j).error;
    assert |trace| >= 2 && trace[|trace| - 2..] == [Error(f), Finished] by {
      FailedRun(read, first, n, stopAt, j);
    }
    assert trace == trace[..|trace| - 2] + [Error(f), Finished];
    ShownErrorLast(trace[..|trace| - 2], f);
  }

  lemma ShownPair(f: Failure)
    ensures Shown([Error(f), Finished]) == [SetMessage(WorkerError(f)), SetMessage(Completed)]
  {
    assert [Error(f), Finished][1..] == [Finished];
    assert [Finished][1..] == [];
  }

  /** A run ended by a stop request never shows the completion message. */
  lemma StoppedShowsNoCompletion(read: Reader, first: int, n: nat, k: nat)
    requires k <= n && ReadsOk(read, first, k)
    ensures SetMessage(Completed) !in Shown(Trace(read, first, n, Some(k)))
  {
    StoppedRun(read, first, n, k);
    NoCompletionWithoutFinished(Trace(read, first, n, Some(k)));
  }

  lemma {:induction false} NoCompletionWithoutFinished(trace: seq<Event>)
    requires Finished !in trace
    ensures SetMessage(Completed) !in Shown(trace)
    decreases |trace|
  {
    if trace != [] {
      assert trace[0] != Finished;
      NoCompletionWithoutFinished(trace[1..]);
    }
  }

  // ---------------------------------------------------------------------------
  // write_outlines
  // ---------------------------------------------------------------------------

  /** The title one line gives: its stripped text, or none when that is empty. */
  function LineTitle(line: string): seq<string> {
    var t := Strip(line);
    if t == [] then [] else [t]
  }

  /** The non-blank lines, stripped, in order. */
  function Titles(lines: seq<string>): (ts: seq<string>)
    ensures |ts| <= |lines|
    ensures forall k :: 0 <= k < |ts| ==> ts[k] != [] && Trimmed(ts[k])
    decreases |lines|
  {
    if lines == [] then [] else LineTitle(lines[0]) + Titles(lines[1..])
  }

  /** The outline titles taken from the text box: its lines, stripped, blank ones dropped. */
  function OutlineTitles(text: string): seq<string> {
    Titles(Split(text, "\n"))
  }

  lemma {:induction false} TitlesAppend(a: seq<string>, b: seq<string>)
    ensures Titles(a + b) == Titles(a) + Titles(b)
    decreases |a|
  {
    if a == [] {
      assert a + b == b;
    } else {
      assert (a + b)[0] == a[0] && (a + b)[1..] == a[1..] + b;
      TitlesAppend(a[1..], b);
    }
  }

  /** The titles of two blocks of lines joined by a line break are the titles of each, in order. */
  lemma OutlineTitlesOfLines(a: string, b: string)
    ensures OutlineTitles(a + "\n" + b) == OutlineTitles(a) + OutlineTitles(b)
  {
    SplitAround(a, '\n', b);
    TitlesAppend(Split(a, "\n"), Split(b, "\n"));
  }

  /** A single line gives its stripped text as the one title, or nothing when it is blank. */
  lemma OutlineTitlesOfLine(line: string)
    requires '\n' !in line
    ensures OutlineTitles(line) == if Strip(line) == [] then [] else [Strip(line)]
  {
    SplitWithoutSeparator(line, '\n');
    assert [line][1..] == [];
  }

  /** Lines written one per row give back exactly their titles, in order. */
  lemma {:induction false} OutlineTitlesOfJoin(lines: seq<string>)
    requires |lines| >= 1
    requires forall j :: 0 <= j < |lines| ==> '\n' !in lines[j]
    ensures OutlineTitles(Join(lines, "\n")) == Titles(lines)
    decreases |lines|
  {
    if |lines| == 1 {
      OneLineTitles(lines[0]);
      assert lines == [lines[0]];
    } else {
      var rest := lines[1..];
      assert [lines[0]] + rest == lines;
      assert OutlineTitles(Join(rest, "\n")) == Titles(rest) by {
        OutlineTitlesOfJoin(rest);
      }
      assert OutlineTitles(Join(lines, "\n")) == Titles([lines[0]]) + OutlineTitles(Join(rest, "\n")) by {
        JoinedTitles(lines[0], rest);
      }
      assert Titles(lines) == Titles([lines[0]]) + Titles(rest) by {
        TitlesAppend([lines[0]], rest);
      }
    }
  }

  lemma OneLineTitles(line: string)
    requires '\n' !in line
    ensures OutlineTitles(line) == Titles([line])
  {
    SplitWithoutSeparator(line, '\n');
  }

  lemma JoinedTitles(line: string, rest: seq<string>)
    requires '\n' !in line && |rest| >= 1
    ensures OutlineTitles(Join([line] + rest, "\n")) == Titles([line]) + OutlineTitles(Join(rest, "\n"))
  {
    var lines := [line] + rest;
    assert lines[1..] == rest;
    assert Join(lines, "\n") == line + "\n" + Join(rest, "\n");
    OutlineTitlesOfLines(line, Join(rest, "\n"));
    OneLineTitles(line);
  }

  /** Stripping never brings in a character. */
  lemma StripKeepsOut(s: string, c: char)
    requires c !in s
    ensures c !in Strip(s)
  {
    StripIsSubseq(s);
    SubseqHasNoNew(Strip(s), s, c);
  }

  lemma {:induction false} TitlesKeepOut(lines: seq<string>, c: char)
    requires forall j :: 0 <= j < |lines| ==> c !in lines[j]
    ensures forall k :: 0 <= k < |Titles(lines)| ==> c !in Titles(lines)[k]
    decreases |lines|
  {
    if lines != [] {
      TitlesKeepOut(lines[1..], c);
      StripKeepsOut(lines[0], c);
    }
  }

  /** Every outline title is a single line. */
  lemma TitlesAreSingleLines(text: string)
    ensures forall k :: 0 <= k < |OutlineTitles(text)| ==> '\n' !in OutlineTitles(text)[k]
  {
    SplitPiecesFree(text, '\n');
    TitlesKeepOut(Split(text, "\n"), '\n');
  }

  /** The suffix of the outline file name. */
  const OutlineSuffix: string := ".outline.pdf"

  /**
   * The output path as the source computes it: every `.pdf` in the path
   * removed, then the suffix.  What precedes the suffix is the input with
   * characters deleted, not necessarily a prefix of it.
   */
  function OutputPathAsWritten(path: string): (out: string)
    ensures |out| >= |OutlineSuffix| && out[|out| - |OutlineSuffix|..] == OutlineSuffix
    ensures IsSubseq(out[..|out| - |OutlineSuffix|], path)
  {
    var stem := ReplaceAll(path, ".pdf", "");
    assert IsSubseq("", ".pdf");
    ReplaceIsSubseq(path, ".pdf", "");
    var out := stem + OutlineSuffix;
    assert out[..|out| - |OutlineSuffix|] == stem;
    out
  }

  /** The intended output path: only a final `.pdf` extension replaced by the suffix. */
  function OutputPath(path: string): (out: string)
    ensures |out| >= |OutlineSuffix| && out[|out| - |OutlineSuffix|..] == OutlineSuffix
    ensures var stem := out[..|out| - |OutlineSuffix|];
      |path| - 4 <= |stem| <= |path| && stem == path[..|stem|]
  {
    var n := |path|;
    if n >= 4 && path[n - 4..] == ".pdf" then path[..n - 4] + OutlineSuffix else path + OutlineSuffix
  }

  /** A file name `x.pdf` gives `x.outline.pdf`, with `x` kept whole. */
  lemma OutputPathOfPdf(x: string)
    ensures OutputPath(x + ".pdf") == x + OutlineSuffix
  {
    var p := x + ".pdf";
    assert p[|p| - 4..] == ".pdf";
    assert p[..|p| - 4] == x;
  }

  /** A path not ending in `.pdf` only gets the suffix appended. */
  lemma OutputPathOfOther(path: string)
    requires !(|path| >= 4 && path[|path| - 4..] == ".pdf")
    ensures OutputPath(path) == path + OutlineSuffix
  {
  }

  /** `.pdf` occurs nowhere in `x`. */
  predicate FreeOfPdf(x: string) {
    forall i :: 0 <= i < |x| ==> !OccursAt(x, ".pdf", i)
  }

  /** Where `.pdf` occurs only as the extension, the source's path is the intended one. */
  lemma AsWrittenAgrees(x: string)
    requires FreeOfPdf(x)
    ensures OutputPathAsWritten(x + ".pdf") == OutputPath(x + ".pdf")
  {
    StemWithoutPdf(x);
    OutputPathOfPdf(x);
  }

  /** Removing `.pdf` from a text that starts with it removes that occurrence first. */
  lemma RemovePdfFront(t: string)
    ensures ReplaceAll(".pdf" + t, ".pdf", "") == ReplaceAll(t, ".pdf", "")
  {
    var s := ".pdf" + t;
    assert s[..4] == ".pdf" && s[4..] == t;
  }

  /** A non-empty `x` free of `.pdf` followed by `.pdf` does not start with `.pdf`. */
  lemma PdfNotInFront(x: string, y: string)
    requires x != [] && FreeOfPdf(x)
    ensures (x + ".pdf" + y)[..4] != ".pdf"
  {
    var s := x + ".pdf" + y;
    if |x| >= 4 {
      assert s[..4] == x[..4];
      assert !OccursAt(x, ".pdf", 0);
    } else {
      assert s[|x|] == '.';
      assert ".pdf"[|x|] != '.';
    }
  }

  lemma TailWithoutPdf(x: string)
    requires x != [] && FreeOfPdf(x)
    ensures FreeOfPdf(x[1..])
  {
    forall i | 0 <= i < |x[1..]| ensures !OccursAt(x[1..], ".pdf", i) {
      assert !OccursAt(x, ".pdf", i + 1);
      if i + 4 <= |x[1..]| {
        assert x[1..][i..i + 4] == x[i + 1..i + 5];
      }
    }
  }

  /** Text free of `.pdf` in front of a `.pdf` survives the removal; only that `.pdf` goes. */
  lemma {:induction false} StemThen(x: string, y: string)
    requires FreeOfPdf(x)
    ensures ReplaceAll(x + ".pdf" + y, ".pdf", "") == x + ReplaceAll(y, ".pdf", "")
    decreases |x|
  {
    if x == [] {
      RemovePdfFront(y);
      assert x + ".pdf" + y == ".pdf" + y;
    } else {
      var s := x + ".pdf" + y;
      PdfNotInFront(x, y);
      TailWithoutPdf(x);
      StemThen(x[1..], y);
      assert s[1..] == x[1..] + ".pdf" + y;
      assert ReplaceAll(s, ".pdf", "") == [s[0]] + ReplaceAll(s[1..], ".pdf", "");
      assert x == [x[0]] + x[1..];
    }
  }

  lemma StemWithoutPdf(x: string)
    requires FreeOfPdf(x)
    ensures ReplaceAll(x + ".pdf", ".pdf", "") == x
  {
    StemThen(x, []);
    assert x + ".pdf" + [] == x + ".pdf";
  }

  lemma SlashKeepsFree(name: string)
    requires FreeOfPdf(name)
    ensures FreeOfPdf("/" + name)
  {
    var t := "/" + name;
    forall i | 0 <= i < |t| ensures !OccursAt(t, ".pdf", i) {
      if i == 0 {
        assert |t| < 4 || t[..4][0] == '/';
      } else {
        assert !OccursAt(name, ".pdf", i - 1);
        if i + 4 <= |t| {
          assert t[i..i + 4] == name[i - 1..i + 3];
        }
      }
    }
  }

  /**
   * A directory named like a PDF file: for `dir.pdf/name.pdf` the source
   * writes `dir/name.outline.pdf`, dropping `.pdf` from the directory too.
   */
  lemma AsWrittenLosesDirectory(dir: string, name: string)
    requires FreeOfPdf(dir) && FreeOfPdf(name)
    ensures OutputPathAsWritten(dir + ".pdf/" + name + ".pdf") == dir + "/" + name + OutlineSuffix
  {
    var rest := "/" + name + ".pdf";
    assert dir + ".pdf/" + name + ".pdf" == dir + ".pdf" + rest;
    StemThen(dir, rest);
    SlashKeepsFree(name);
    StemWithoutPdf("/" + name);
    assert dir + ("/" + name) == dir + "/" + name;
  }

  /** On the same paths the intended output keeps the directory. */
  lemma OutputPathKeepsDirectory(dir: string, name: string)
    ensures OutputPath(dir + ".pdf/" + name + ".pdf") == dir + ".pdf/" + name + OutlineSuffix
  {
    OutputPathOfPdf(dir + ".pdf/" + name);
  }

  /** So the two disagree on every such path. */
  lemma AsWrittenDiffers(dir: string, name: string)
    requires FreeOfPdf(dir) && FreeOfPdf(name)
    ensures OutputPathAsWritten(dir + ".pdf/" + name + ".pdf") != OutputPath(dir + ".pdf/" + name + ".pdf")
  {
    AsWrittenLosesDirectory(dir, name);
    OutputPathKeepsDirectory(dir, name);
  }

  /**
   * What `write_outlines` hands to the PDF writer: pages, then outline items.
   * `pageNumber` is pypdf's 0-based index into the writer's pages.
   */
  datatype WriterOp<P> = AddPage(page: P) | AddOutline(title: string, pageNumber: int)

  /** The writer's content and the path it is written to. */
  datatype Outlined<P> = Outlined(ops: seq<WriterOp<P>>, path: string)

  /** One `add_page` per page of the reader, in order. */
  function AddPages<P>(pages: seq<P>): (ops: seq<WriterOp<P>>)
    ensures |ops| == |pages| && forall i :: 0 <= i < |pages| ==> ops[i] == AddPage(pages[i])
  {
    seq(|pages|, i requires 0 <= i < |pages| => AddPage(pages[i]))
  }

  /** One `add_outline_item` per title, in order, each with `page_number=1`. */
  function AddOutlines<P>(titles: seq<string>): (ops: seq<WriterOp<P>>)
    ensures |ops| == |titles| && forall k :: 0 <= k < |titles| ==> ops[k] == AddOutline(titles[k], 1)
  {
    seq(|titles|, k requires 0 <= k < |titles| => AddOutline(titles[k], 1))
  }

  /**
   * `write_outlines`: without an open file only the message; otherwise every
   * page of the open file, then one outline item per title of the text box,
   * written to the path the source computes.
   */
  function WriteOutlines<P>(filename: string, pages: seq<P>, text: string): (r: Result<Outlined<P>, Message>)
    ensures r.Err? <==> filename == []
    ensures r.Err? ==> r.error == OpenFirst
    ensures r.Ok? ==>
      var ops := r.value.ops;
      var titles := OutlineTitles(text);
      && |ops| == |pages| + |titles|
      && (forall i :: 0 <= i < |pages| ==> ops[i] == AddPage(pages[i]))
      && (forall k :: 0 <= k < |titles| ==> ops[|pages| + k] == AddOutline(titles[k], 1))
      && r.value.path == OutputPathAsWritten(filename)
  {
    if filename == [] then Err(OpenFirst)
    else Ok(Outlined(WriterContent(pages, OutlineTitles(text)), OutputPathAsWritten(filename)))
  }

  /** `write_outlines` with the intended output path: the same content, next to the file. */
  function WriteOutlinesIntended<P>(filename: string, pages: seq<P>, text: string): (r: Result<Outlined<P>, Message>)
    ensures r.Err? <==> WriteOutlines(filename, pages, text).Err?
    ensures r.Err? ==> r == WriteOutlines(filename, pages, text)
    ensures r.Ok? ==>
      && r.value.ops == WriteOutlines(filename, pages, text).value.ops
      && r.value.path == OutputPath(filename)
  {
    if filename == [] then Err(OpenFirst)
    else Ok(Outlined(WriterContent(pages, OutlineTitles(text)), OutputPath(filename)))
  }

  /** When `.pdf` occurs in the file name only as its extension, the source writes the intended file. */
  lemma WriteOutlinesAgree<P>(x: string, pages: seq<P>, text: string)
    requires FreeOfPdf(x)
    ensures WriteOutlines(x + ".pdf", pages, text) == WriteOutlinesIntended(x + ".pdf", pages, text)
  {
    AsWrittenAgrees(x);
  }

  /** The pages, then one outline item per title. */
  function WriterContent<P>(pages: seq<P>, titles: seq<string>): (ops: seq<WriterOp<P>>)
    ensures |ops| == |pages| + |titles|
    ensures forall i :: 0 <= i < |pages| ==> ops[i] == AddPage(pages[i])
    ensures forall k :: 0 <= k < |titles| ==> ops[|pages| + k] == AddOutline(titles[k], 1)
  {
    var ops := AddPages(pages) + AddOutlines<P>(titles);
    assert forall k :: 0 <= k < |titles| ==> ops[|pages| + k] == AddOutlines<P>(titles)[k];
    ops
  }
}
